=== FILE: README.md ===
# heat linear algebra: the bookkeeping layer

This project models the integer and sequence bookkeeping underneath
`heat/core/linalg.py`, the distributed linear algebra of the heat array
library. Every process computes this layer for itself from a few gathered
tables. The MPI traffic and the torch numerics around it are left out.

The model has these parts:

- `matmul` and `dot` pick a strategy and the split axis of the result.
- The both-split `matmul` path computes block sizes and remainder flags,
  builds and shifts the block maps, and adds block products into `c`.
- The split=0 QR plans a binary merge of tile rows, names each merged Q with
  a string key, picks the diagonal process and assembles the Q tiles.
- `transpose` checks its axes and computes the new shape and split.
- `tril`/`triu` correct the diagonal offset on a shard.

Cross-process tables are inputs: `lshape_map`, `rem_map`, `index_map`,
`tile_rows_per_process`. Local shards are integer matrices. Merged Q
matrices are symbolic tiles. Python's exceptions are the `Err` cases of a
`Result`.

Files, one module each:

- `common.dfy`: Option, Result, exception names, prefix sums.
- `dispatch.dfy`: `matmul`/`dot` decisions.
- `block_sizes.dfy`: kB, mB, nB and the remainder flags.
- `block_map.dfy`: building and shifting the block maps. These are methods over `array3`.
- `block_setter.dfy`: `__mm_c_block_setter`. Its four nested loops add into c, an `array2<int>`. The block maps, which it only reads, are passed as nested sequences.
- `merge_keys.dfy`: merge keys, with Python's `str`, `find`, slicing, `int` and string order.
- `merge_schedule.dfy`: the merge loop of `__qr_split0_r_calc`.
- `qr_tiles.dfy`: diagonal process, active processes, tile rows, squaring.
- `global_merge.dfy`: `__qr_split0_global_q_dict_set`. This is a class over a map of tiles.
- `transpose.dfy`: `transpose`.
- `triangle.dfy`: `__tri_op`, `tril` and `triu`.

## Model

| member | source | states |
|---|---|---|
| Dispatch.ExpandDims | heat/core/linalg.py:189-196 | a vector gains an axis of extent 1 at the given position, the rest of the shape is kept around it, and a split array stays split |
| Dispatch.ShapeCheck | heat/core/linalg.py:156-160 | no error exactly when both operands have a dimension and a's last extent equals b's first; ValueError exactly for a mismatch against a b of two or more dimensions; every other failure is IndexError (a 0-d operand, or the message's `b.gshape[-2]` on a vector b) |
| Dispatch.Matmul | heat/core/linalg.py:156-280 | the contraction check comes before anything else: a mismatch raises ValueError when b has two or more dimensions and IndexError when b is a vector; with neither operand split the result is unsplit, and the resplit branch is taken iff allowed and both are matrices; NotImplementedError iff some expanded split is 2 or more; each of 0/0, 1/1, 0/1, 1/0 selects exactly its block strategy; for matrices the result split is a's split if set, else b's, except a column split of a with a one-column result gives split 0; vector operands force split 0, with the two exceptions the source has |
| Dispatch.Dot | heat/core/linalg.py:37-77 | a scalar or 0-d operand means multiply; two unsplit vectors raise RuntimeError iff their lengths differ; otherwise two vectors give an inner product chunked along a's split, else b's, and all-reduced iff either operand is distributed; two matrices give the `matmul` result; every other case raises NotImplementedError |
| BlockSizes.ContractionBlock | heat/core/linalg.py:283-297 | for any number of dimensions d, with the splits compared to a's axes d-1 and d-2: kB never exceeds P (a's last extent); it is P / procs when a is split on axis d-1, or b on axis d-2 with a matching P; it is P for the (d-2, d-1) pair and 0 for every other pair |
| BlockSizes.UnflaggedExtentIsWholeBlocks | heat/core/linalg.py:299-322 | a clear remainder flag means whole blocks cover the extent, and with kB = 1 that the probed extent is 1 |
| BlockSizes.MinARows | heat/core/linalg.py:314 | mB is the smallest local row count of a over all processes |
| BlockSizes.MinBCols | heat/core/linalg.py:315 | nB is the smallest local column count of b over all processes |
| BlockSizes.ComputeBlocking | heat/core/linalg.py:282-322 | for operands of any number of dimensions: RuntimeError iff kB is not 0 and the operands differ in rank (the shape map's rows are as wide as a's rank, and b's local shape is copied into one); ZeroDivisionError iff kB is 0 or, for equal ranks, mB or nB is 0; otherwise mB and nB are the attained minima; each of the four flags is clear iff whole blocks cover the process's own extent and, when kB is 1, the probed extent is 1 (for b's rows the source divides `b.lshape[0]` and probes `b.lshape[-2]`) |
| BlockSizes.BRowFlags | heat/core/linalg.py:299-334 | once every division succeeded, entry pr of the gathered column `rem_map[:, 1, 0]` is the b-row flag process pr computes for itself with the block sizes all processes share |
| BlockSizes.AColFlags | heat/core/linalg.py:299-334 | once every division succeeded, entry pr of the gathered column `rem_map[:, 0, 1]` is the a-column flag process pr computes for itself with the block sizes all processes share |
| BlockSizes.ThreeDimRowSplitOfBRaises | heat/core/linalg.py:283-299 | three-dimensional operands split 0/0 or 1/0 leave kB at 0, so every process raises ZeroDivisionError at the first remainder test |
| BlockSizes.MixedRankOperandsRaise | heat/core/linalg.py:283-310 | a three-dimensional a split 0 with a matrix b split 1 gets a non-zero kB, and copying b's two-entry local shape into a shape-map row as wide as a's rank (three) raises RuntimeError |
| BlockSizes.OneContractionBlockPerProcess | heat/core/linalg.py:283-297 | with kB = P / procs and procs <= P, each process holds exactly one kB block |
| BlockMaps.BlockInsideShard | heat/core/linalg.py:393-401 | every block that a filled map entry describes ends inside its process's shard |
| BlockMaps.BuildBlockMap | heat/core/linalg.py:365-405 | the map has the source's shape; IndexError iff some process's block counts overrun it; otherwise entry (pr, d0, d1) is (d0 * rowBlock, d1 * colBlock) within that process's block counts (divided by the process count when some extent is 1) and (0, 0) elsewhere |
| BlockMaps.ShiftColumnOffsets | heat/core/linalg.py:407-414 | after the shift, every column offset has grown by min(d1, number of set b-row flags) and the row offsets are unchanged |
| BlockMaps.ShiftRowOffsets | heat/core/linalg.py:457-463 | after the shift, every row offset has grown by min(d0, number of set a-column flags) and the column offsets are unchanged |
| BlockSetter.UncoveredEntryUnchanged | heat/core/linalg.py:797-827 | an entry of c that lies in no visited window receives nothing |
| BlockSetter.ZeroZeroVisitsOneColumnBlock | heat/core/linalg.py:793-801 | on the 0/0 path b's map has one row block per process, so the setter visits exactly the one column block of a numbered `b_proc` |
| BlockSetter.OneOneMapIsOneBlock | heat/core/linalg.py:797-815 | on the 1/1 path a's map is 1 x 1 per process, so ranging its column blocks by its row-block count visits the intended block |
| BlockSetter.AddBlockProduct | heat/core/linalg.py:817-827 | c grows by the block product exactly inside the window at a's row offset and b's column offset, and nowhere else |
| BlockSetter.AddOverBRowBlocks | heat/core/linalg.py:809-815 | c grows by the sum of the products over the visited row blocks of b |
| BlockSetter.AddOverBColBlocks | heat/core/linalg.py:806-808 | c grows by the sum over all column blocks of b |
| BlockSetter.AddOverARowBlocks | heat/core/linalg.py:803-805 | c grows by the sum over all row blocks of a |
| BlockSetter.SetBlocks | heat/core/linalg.py:788-827 | every entry of c grows by the sum, over the visited block pairs whose window holds it, of that entry of the block product; entries outside every window are unchanged |
| MergeKeys.NatToString | heat/core/linalg.py:1197 | `str(n)` is a non-empty string of digits with no leading zero, and it is one character long iff n < 10 |
| MergeKeys.ParseInt | heat/core/linalg.py:1044-1045 | `int(s)` succeeds iff s is an optional sign followed by at least one digit, and otherwise raises ValueError; on digits it gives their value |
| MergeKeys.ParseNatToString | heat/core/linalg.py:1044-1045 | `int(str(n)) == n` |
| MergeKeys.FindFrom | heat/core/linalg.py:1041-1043 | `find` returns the first position where the pattern occurs, or -1 when it occurs nowhere |
| MergeKeys.SliceBound | heat/core/linalg.py:1044-1045 | a slice bound lies within the string and is unchanged when already inside it |
| MergeKeys.PySlice | heat/core/linalg.py:1044-1045 | an in-range slice is the subsequence between its bounds |
| MergeKeys.SpellRoundTrip | heat/core/linalg.py:1041-1045 | any key of the form digits "p0" digits "p1" digits "e" parses back to the values of its two rank strings |
| MergeKeys.KeyRoundTrip | heat/core/linalg.py:1197 | the key `str(loop) + "p0" + str(pr0) + "p1" + str(pr1) + "e"` parses back to (pr0, pr1) for every loop, pr0 and pr1 |
| MergeKeys.RebuiltKeyRoundTrip | heat/core/linalg.py:1568-1571 | a key rebuilt from a first digit and two ranks parses back to those ranks |
| MergeKeys.RebuiltKeyExactBelowTen | heat/core/linalg.py:1530 | a rebuilt key equals the original iff the round number has one digit |
| MergeKeys.RoundOrderBelowTen | heat/core/linalg.py:1035 | with round numbers below 10, the keys of an earlier round sort strictly first |
| MergeKeys.RoundTenSortsBeforeRoundTwo | heat/core/linalg.py:1035 | a round-10 key sorts strictly before a round-2 key |
| MergeKeys.SortKeys | heat/core/linalg.py:1034-1035 | the result is in Python string order and is a permutation of the keys |
| MergeSchedule.DropTail | heat/core/linalg.py:1214 | `s[:-k]` drops the last k entries when 0 < k <= len(s) |
| MergeSchedule.RecordedKeyNamesRanks | heat/core/linalg.py:1220-1227 | the key a merge's Q is stored under follows from its kind, round and ranks: the remainder merge's key parses to (pr1, pr0), reversed; every other key parses to (pr0, pr1) |
| MergeSchedule.DiagonalCopyNamesMergeOrder | heat/core/linalg.py:1524-1530 | the key rebuilt for the diagonal process's copy parses to (pr0, pr1), in merge order, for every kind of merge |
| MergeSchedule.PairHalves | heat/core/linalg.py:1184-1212 | exactly `half` merges are appended after the earlier ones, kept unchanged; the i-th pairs rank i (upper) with rank half + i (lower) in round `loop`; the lower half's ranks become merged |
| MergeSchedule.SetAside | heat/core/linalg.py:1173-1180 | an odd list gives its last rank to the free remainder slot; the list becomes even and no rank is lost |
| MergeSchedule.CloseRound | heat/core/linalg.py:1214-1277 | the earlier merges are kept; with two remainders exactly the merge (rem2 upper, rem1 lower) of round `loop` is appended; when one rank is left and a remainder is pending, the last merge is the final one of that remainder into `offset` in round loop + 1 and the slot is emptied; otherwise the pending remainder is kept; the round counter advances |
| MergeSchedule.Round | heat/core/linalg.py:1172-1277 | a round keeps the loop invariant and strictly lowers the number of ranks still pending |
| MergeSchedule.RCalcSchedule | heat/core/linalg.py:1164-1277 | the loop terminates on any ascending non-empty list; every merge pairs a rank with a later one; every rank but the first is the lower partner exactly once and the first never; it ends with one rank left and no remainder |
| QrTiles.NotCompleted | heat/core/linalg.py:953 | rank pr is listed iff the prefix sum through pr exceeds the column; the list is ascending |
| QrTiles.DiagProcess | heat/core/linalg.py:958 | IndexError iff no process holds rows at or below the column; otherwise the diagonal process is the one whose rows contain the column |
| QrTiles.FirstNotCompleted | heat/core/linalg.py:1019-1023 | the list is empty iff all tile rows lie above the column; its first process contains the column |
| QrTiles.Range | heat/core/linalg.py:936 | `arange(lo, hi)`: the ascending list of exactly the numbers from lo to hi - 1 |
| QrTiles.NotCompletedIsSuffix | heat/core/linalg.py:945-958 | the processes still at work are exactly the consecutive ranks from the diagonal process on |
| QrTiles.RCalcColumns | heat/core/linalg.py:941-966 | a rank that is inactive or past the trimmed table takes part in no column; any other rank takes part in the first min(tile columns, its cumulative tile rows) columns, each with its diagonal process at or before it |
| QrTiles.FirstEmpty | heat/core/linalg.py:937-938 | the first process holding no rows, or nothing when every process holds rows |
| QrTiles.ActiveProcs | heat/core/linalg.py:935-940 | pr is active iff it holds rows or an earlier process is already empty, so only the first empty process is dropped; the list is ascending |
| QrTiles.SecondEmptyStaysActive | heat/core/linalg.py:938-940 | an empty process after another empty one stays active |
| QrTiles.TrimmedTileRows | heat/core/linalg.py:941 | IndexError iff no process is active; otherwise the tile-row table up to the last active process |
| QrTiles.LocalTileRow | heat/core/linalg.py:1149 | on the diagonal process the local start row is the diagonal tile's offset within its rows; elsewhere it is 0 |
| QrTiles.MergeTileRow | heat/core/linalg.py:1397-1398 | the row a process contributes is at or below the column and at or after its first row, and it lies inside the process's rows iff that process holds rows |
| QrTiles.SquareUp | heat/core/linalg.py:1409-1418 | only the row stop moves and never shrinks; a process with more than one tile row gets at least as many rows as columns; a moved stop makes the tile square |
| GlobalMerge.RowsIn | heat/core/linalg.py:1070-1089 | the tile rows below n that have a tile stored in the column |
| GlobalMerge.Placed | heat/core/linalg.py:1092-1116 | with nothing stored in the source column the quadrant lands on its home tile; otherwise each stored row gets the stored tile times the quadrant in the target column, and nothing else changes |
| GlobalMerge.FirstMergePlacesQuadrants | heat/core/linalg.py:1063-1116 | a merge into two empty columns lays out the four quadrants as the 2 x 2 block at rows and columns (col1, col2) |
| GlobalMerge.DisjointColumnsMultiply | heat/core/linalg.py:1075-1116 | when the two columns hold disjoint rows, rows of col1 are multiplied by the upper quadrants and rows of col2 by the lower ones, and other columns are untouched |
| GlobalMerge.SharedRowKeepsLowerProduct | heat/core/linalg.py:1092-1111 | a row stored in both columns keeps only its lower-quadrant product, because the updates overwrite |
| GlobalMerge.PyIndex | heat/core/linalg.py:1059-1060 | Python indexing succeeds iff -len <= i < len, otherwise IndexError |
| GlobalMerge.TileStarts | heat/core/linalg.py:1019-1026 | after the shift, each process's entry is the sum of the tile rows before it |
| GlobalMerge.KeyColumns | heat/core/linalg.py:1041-1060 | a key that does not parse raises the parse error |
| GlobalMerge.PlacementMatchesMergedRows | heat/core/linalg.py:1056-1060 | a key written by the merge loop is placed on exactly the tile rows its two ranks merged |
| GlobalMerge.GlobalMergeDict.constructor | heat/core/linalg.py:1030 | the dictionary starts empty |
| GlobalMerge.GlobalMergeDict.Place | heat/core/linalg.py:1092-1100 | the tiles become those of one placement update |
| GlobalMerge.GlobalMergeDict.MergeKey | heat/core/linalg.py:1063-1116 | the tiles become the four updates of one key, each reading the tiles as they were before the first |
| GlobalMerge.GlobalMergeDict.MergeSortedKeys | heat/core/linalg.py:1038-1116 | the keys are merged in the order given; the result and any error match folding them, and a bad key leaves exactly the keys before it applied |
| GlobalMerge.GlobalMergeDict.GlobalQDictSet | heat/core/linalg.py:1019-1117 | a column with no diagonal process raises IndexError and changes nothing; otherwise the keys are applied in sorted order, the result and any error match folding the keys, and a bad key leaves exactly the keys sorted before it applied |
| Transpose.NormalizeAxes | heat/core/linalg.py:1866-1870 | TypeError iff some entry is not an int; otherwise negative entries get `dims` added once and the others are kept |
| Transpose.IndexOf | heat/core/linalg.py:1874 | `list.index`: the first position of the value, or nothing when it is absent |
| Transpose.Reversed | heat/core/linalg.py:1855 | the dimensions in reverse order |
| Transpose.TransposeMeta | heat/core/linalg.py:1853-1888 | a non-iterable or wrong-length axes raises ValueError; a non-int entry raises TypeError; once read, the axes (reversed when none are given) are accepted iff they are a permutation that contains the split axis, and ValueError otherwise; on success the axes are a permutation, the new shape is the old one permuted by them, and the new split is the position of the old split in them |
| Transpose.Mirror | heat/core/linalg.py:1855 | the reversed shape, with the split at the mirrored position |
| Transpose.DefaultReverses | heat/core/linalg.py:1854-1855 | without axes the shape is reversed and the split mirrored |
| Transpose.DefaultTwiceIsIdentity | heat/core/linalg.py:1853-1885 | transposing twice without axes gives back the shape and split |
| Transpose.SplitExtentKept | heat/core/linalg.py:1874-1881 | the new split axis has the extent of the old one |
| Transpose.MissingSplitRaises | heat/core/linalg.py:1873-1876 | an old split that no axis names raises ValueError |
| Transpose.DoublyNegativeAxesAccepted | heat/core/linalg.py:1869-1881 | on an unsplit 2-D array the axes (-4, -3) are accepted and keep the shape, because torch wraps them a second time |
| Triangle.ApplyTri | heat/core/linalg.py:1957-1959 | the operator keeps the shape of the matrix |
| Triangle.LocalK | heat/core/linalg.py:1949-1954 | the shifted k makes the local mask the global mask: for a split on the second-to-last axis the row index moves by offset, on the last axis (and for vectors) the column index moves, and otherwise (batch axes, no split, 0-d) k is kept |
| Triangle.TriMeta | heat/core/linalg.py:1922-1967 | an error iff k is rejected or the array is 0-d: a ValueError from `int(k)` becomes TypeError and any other error `int()` raises (OverflowError for an infinite float) propagates unchanged, and a 0-d array raises IndexError in the batch loop; a vector of length n gives an n x n result, split 1 iff the vector was split; otherwise shape and split are kept |
| Triangle.Columns | heat/core/linalg.py:1949-1954 | a column shard holds the same entries as the matrix at shifted columns |
| Triangle.Expand | heat/core/linalg.py:1933 | `expand(n, -1)` gives n rows that are all the vector |
| Triangle.RowShardMatchesGlobal | heat/core/linalg.py:1949-1959 | a shard of rows processed with the shifted k equals the same rows of the globally processed matrix |
| Triangle.ColumnShardMatchesGlobal | heat/core/linalg.py:1949-1959 | a shard of columns processed with the shifted k equals the same columns of the globally processed matrix |
| Triangle.VectorShardMatchesGlobal | heat/core/linalg.py:1931-1935 | a vector shard, repeated and processed with k - offset, equals its columns of the globally processed n x n matrix |

## Left out

- `Dispatch.Dot`: for two vectors of which at least one is split, the model gives the inner-product plan whatever the lengths. Each process then slices its chunk of a's range out of both vectors, and whether `torch.dot` fails depends on how that chunk meets b's length and b's own distribution, which the model does not track.
- MPI traffic is not modelled. This covers Allreduce, Iallreduce, Bcast, the point-to-point sends and receives, their waits, and the broadcast of merge keys. The gathered tables are inputs instead, and the merge loop is seen from all processes at once.
- Floating-point values are not modelled: torch's QR and matmul results, the orthogonality of Q, and the numeric Q accumulation in `__qr_split0_local_q_calc`, `__qr_split0_q_loop` and `__qr_split1_loop`. Merged Qs are symbolic tiles, and block products are integer products.
- The per-rank early exit of the merge loop (lines 1181-1182) is not modelled, because the schedule is the same on every process.
- The Q loop's own diagonal choice (lines 1565-1567) is not modelled. It uses `proc_tile_start[-1]` only when the column equals the tile-column count, which the loop never reaches.
- Dtype promotion, devices, `out=` arguments and `torch.jit.script` are not modelled. Neither are the type checks on the array argument, which reject anything that is not a DNDarray.
- `int()` of strings with whitespace or underscores is not modelled. Keys only ever contain plain digits.
- `comm.chunk`, `tiling.SquareDiagTiles` (`get_start_stop`, `local_get`, `local_set`), `factories`, `resplit_` and `balance_` are not part of this model. The shard offset, the tile indices and the tables they provide are inputs.
- `Dispatch.ExpandDims` assumes a contract for `manipulations.expand_dims`: a split at or after the new axis moves up by one.
- `BlockMaps.BuildBlockMap` takes the `index_map` extents equal to the `lshape_map` entries. It does not model `index_map` as a separate table.
- `BlockSetter.SetBlocks` requires that every visited window fits inside the shards and inside c. When a window does not fit, torch would slice a shorter block and fail on the product.
- `Triangle.ApplyTri` and the shard lemmas cover vectors and matrices. The loop over the batch indices of arrays with more than two dimensions is not modelled beyond the k that `Triangle.LocalK` gives it.
- `Triangle.TriMeta` does not model `torch.numel(triangle > 0)` separately. It skips the operator only on empty input, where the operator would change nothing.
- `Transpose.TransposeMeta` does not permute the local data. Only torch's acceptance of the axes is modelled.
- `GlobalMerge.KeyColumns` states only its error case in its contract. Its placement is stated by `GlobalMerge.PlacementMatchesMergedRows` for the keys the merge loop writes.
- The split=1 QR loop (`__qr_split1_loop`) is modelled only in its diagonal choice, through `QrTiles.DiagProcess` on the tile-column table. Its tile updates are numeric.

=== FILE: block_map.dfy ===
/** The block maps of the both-split `matmul` path (source lines 365-463):
    for every process and every block of its shard, the local start
    coordinate of that block, later pushed along by one for every remainder
    row or column that precedes it. */
module BlockMaps {
  import opened Common
  import opened BlockSizes

  /** A start coordinate stored in a block map: `(row, col)`. */
  datatype Offset = Offset(row: nat, col: nat)

  /** Number of blocks of size `block` along a local extent. When some process
      holds a single row (or column) along that axis the count is divided by
      the number of processes again (source lines 393-401 and 444-452). */
  function BlockCount(extent: nat, block: nat, procs: nat, oneFlag: bool): nat
    requires block > 0 && procs > 0
  {
    if oneFlag then extent / block / procs else extent / block
  }

  /** The shape `(d0, d1)` of the block dimensions of a map: the split axis
      is divided among the processes (source lines 365-376 and 416-427). */
  function MapShape(rows: nat, cols: nat, rowBlock: nat, colBlock: nat, split: nat, procs: nat): (nat, nat)
    requires rowBlock > 0 && colBlock > 0 && procs > 0
  {
    var rowBlocks := rows / rowBlock;
    var colBlocks := cols / colBlock;
    if split == 0 then (rowBlocks / procs, colBlocks) else (rowBlocks, colBlocks / procs)
  }

  /** `any(extents == 1)`. */
  predicate HasSingle(extents: seq<nat>)
  {
    1 in extents
  }

  /** The filling loop of process `pr` writes outside the map: torch then
      raises IndexError. It writes nothing when either block count is 0. */
  predicate Overruns(n0: nat, n1: nat, d0: nat, d1: nat)
  {
    n0 > 0 && n1 > 0 && (n0 > d0 || n1 > d1)
  }

  /** Every block a filled entry describes lies inside its process's shard. */
  lemma BlockInsideShard(extent: nat, block: nat, procs: nat, oneFlag: bool, d: nat)
    requires block > 0 && procs > 0
    requires d < BlockCount(extent, block, procs, oneFlag)
    ensures d * block + block <= extent
  {
    QuotientAtMost(extent / block, procs);
    assert d + 1 <= extent / block;
    MulMono(block, d + 1, extent / block);
    assert block * (extent / block) <= extent;
  }

  /** Builds one block map (source lines 365-405 for a, 416-455 for b).
      `rowExt` and `colExt` are the local extents of every process (the
      `index_map` stop minus start, equal to `lshape_map`); the map starts
      at zero and entry `[pr, d0, d1]` becomes `(d0 * rowBlock, d1 * colBlock)`
      for every block of process `pr`. */
  method BuildBlockMap(procs: nat, rows: nat, cols: nat, split: nat, rowBlock: nat, colBlock: nat,
                       rowExt: seq<nat>, colExt: seq<nat>)
    returns (r: Result<array3<Offset>>)
    requires procs > 0 && rowBlock > 0 && colBlock > 0 && split <= 1
    requires |rowExt| == procs && |colExt| == procs
    ensures var shape := MapShape(rows, cols, rowBlock, colBlock, split, procs);
            var oneRow := HasSingle(rowExt);
            var oneCol := HasSingle(colExt);
            && (r.Err? <==>
                  exists pr :: 0 <= pr < procs &&
                    Overruns(BlockCount(rowExt[pr], rowBlock, procs, oneRow),
                             BlockCount(colExt[pr], colBlock, procs, oneCol), shape.0, shape.1))
            && (r.Err? ==> r.error == IndexError)
            && (r.Ok? ==>
                  fresh(r.value) &&
                  r.value.Length0 == procs && r.value.Length1 == shape.0 && r.value.Length2 == shape.1 &&
                  forall pr, d0, d1 :: 0 <= pr < procs && 0 <= d0 < shape.0 && 0 <= d1 < shape.1 ==>
                    r.value[pr, d0, d1] ==
                      if d0 < BlockCount(rowExt[pr], rowBlock, procs, oneRow) &&
                         d1 < BlockCount(colExt[pr], colBlock, procs, oneCol)
                      then Offset(d0 * rowBlock, d1 * colBlock)
                      else Offset(0, 0))
  {
    var shape := MapShape(rows, cols, rowBlock, colBlock, split, procs);
    var oneRow := HasSingle(rowExt);
    var oneCol := HasSingle(colExt);
    var m := new Offset[procs, shape.0, shape.1]((_, _, _) => Offset(0, 0));
    var pr := 0;
    while pr < procs
      invariant 0 <= pr <= procs
      invariant forall q :: 0 <= q < pr ==>
                  !Overruns(BlockCount(rowExt[q], rowBlock, procs, oneRow),
                            BlockCount(colExt[q], colBlock, procs, oneCol), shape.0, shape.1)
      invariant forall q, d0, d1 :: 0 <= q < procs && 0 <= d0 < shape.0 && 0 <= d1 < shape.1 ==>
                  m[q, d0, d1] ==
                    if q < pr && d0 < BlockCount(rowExt[q], rowBlock, procs, oneRow) &&
                       d1 < BlockCount(colExt[q], colBlock, procs, oneCol)
                    then Offset(d0 * rowBlock, d1 * colBlock)
                    else Offset(0, 0)
    {
      var n0 := BlockCount(rowExt[pr], rowBlock, procs, oneRow);
      var n1 := BlockCount(colExt[pr], colBlock, procs, oneCol);
      var i := 0;
      while i < n0
        invariant 0 <= i <= n0
        invariant i > 0 && n1 > 0 ==> i <= shape.0 && n1 <= shape.1
        invariant forall q, d0, d1 :: 0 <= q < procs && 0 <= d0 < shape.0 && 0 <= d1 < shape.1 ==>
                    m[q, d0, d1] ==
                      if (q < pr && d0 < BlockCount(rowExt[q], rowBlock, procs, oneRow) &&
                          d1 < BlockCount(colExt[q], colBlock, procs, oneCol)) ||
                         (q == pr && d0 < i && d1 < n1)
                      then Offset(d0 * rowBlock, d1 * colBlock)
                      else Offset(0, 0)
      {
        var j := 0;
        while j < n1
          invariant 0 <= j <= n1
          invariant j > 0 ==> i < shape.0 && j <= shape.1
          invariant forall q, d0, d1 :: 0 <= q < procs && 0 <= d0 < shape.0 && 0 <= d1 < shape.1 ==>
                      m[q, d0, d1] ==
                        if (q < pr && d0 < BlockCount(rowExt[q], rowBlock, procs, oneRow) &&
                            d1 < BlockCount(colExt[q], colBlock, procs, oneCol)) ||
                           (q == pr && d0 < i && d1 < n1) || (q == pr && d0 == i && d1 < j)
                        then Offset(d0 * rowBlock, d1 * colBlock)
                        else Offset(0, 0)
        {
          if i >= shape.0 || j >= shape.1 {
            return Err(IndexError);
          }
          m[pr, i, j] := Offset(i * rowBlock, j * colBlock);
          j := j + 1;
        }
        i := i + 1;
      }
      pr := pr + 1;
    }
    return Ok(m);
  }

  /** The column shift of a's map (source lines 407-414), which the source
      runs only when b is split along its rows (`b.split == 0`, line 407;
      the caller decides): for every set flag,
      counted as `cnt`, every entry whose column-block index is at least `cnt`
      moves one column on. In total block `d1` moves by the number of set
      flags, capped at `d1`. */
  method ShiftColumnOffsets(m: array3<Offset>, flags: seq<bool>)
    modifies m
    ensures forall pr, d0, d1 :: 0 <= pr < m.Length0 && 0 <= d0 < m.Length1 && 0 <= d1 < m.Length2 ==>
              m[pr, d0, d1] == Offset(old(m[pr, d0, d1]).row, old(m[pr, d0, d1]).col + Min(d1, CountTrue(flags)))
  {
    var t, cnt := 0, 0;
    while t < |flags|
      invariant 0 <= t <= |flags|
      invariant cnt == CountTrue(flags[..t])
      invariant forall pr, d0, d1 :: 0 <= pr < m.Length0 && 0 <= d0 < m.Length1 && 0 <= d1 < m.Length2 ==>
                  m[pr, d0, d1] == Offset(old(m[pr, d0, d1]).row, old(m[pr, d0, d1]).col + Min(d1, cnt))
    {
      assert flags[..t + 1][..t] == flags[..t];
      if flags[t] {
        cnt := cnt + 1;
        forall pr, d0, d1 | 0 <= pr < m.Length0 && 0 <= d0 < m.Length1 && cnt <= d1 < m.Length2 {
          m[pr, d0, d1] := Offset(m[pr, d0, d1].row, m[pr, d0, d1].col + 1);
        }
      }
      t := t + 1;
    }
    assert flags[..t] == flags;
  }

  /** The row shift of b's map (source lines 457-463), which the source runs
      only when a is split along its columns (`a.split == 1`, line 457; the
      caller decides): the same walk along the row-block index and the row
      coordinate. */
  method ShiftRowOffsets(m: array3<Offset>, flags: seq<bool>)
    modifies m
    ensures forall pr, d0, d1 :: 0 <= pr < m.Length0 && 0 <= d0 < m.Length1 && 0 <= d1 < m.Length2 ==>
              m[pr, d0, d1] == Offset(old(m[pr, d0, d1]).row + Min(d0, CountTrue(flags)), old(m[pr, d0, d1]).col)
  {
    var t, cnt := 0, 0;
    while t < |flags|
      invariant 0 <= t <= |flags|
      invariant cnt == CountTrue(flags[..t])
      invariant forall pr, d0, d1 :: 0 <= pr < m.Length0 && 0 <= d0 < m.Length1 && 0 <= d1 < m.Length2 ==>
                  m[pr, d0, d1] == Offset(old(m[pr, d0, d1]).row + Min(d0, cnt), old(m[pr, d0, d1]).col)
    {
      assert flags[..t + 1][..t] == flags[..t];
      if flags[t] {
        cnt := cnt + 1;
        forall pr, d0, d1 | 0 <= pr < m.Length0 && cnt <= d0 < m.Length1 && 0 <= d1 < m.Length2 {
          m[pr, d0, d1] := Offset(m[pr, d0, d1].row + 1, m[pr, d0, d1].col);
        }
      }
      t := t + 1;
    }
    assert flags[..t] == flags;
  }
}

=== FILE: block_setter.dfy ===
/** `__mm_c_block_setter` (source lines 788-827): for one pair of processes,
    multiply every visited block of a with every visited block of b and add
    the product into the matching window of c. The local shards are integer
    matrices here, and the block maps `BlockMaps` builds are passed as
    values: the setter reads them and writes only c. */
module BlockSetter {
  import opened Common
  import opened BlockSizes
  import opened BlockMaps

  /** A block map as the setter reads it: `m[pr][d0][d1]` is the offset of
      block `(d0, d1)` of process `pr`. The setter only reads the maps, so
      they are values here. */
  type BlockMap = seq<seq<seq<Offset>>>

  /** `shape[1]` of a block map: the number of row blocks per process. */
  function Dim1(m: BlockMap): nat
  {
    if |m| == 0 then 0 else |m[0]|
  }

  /** `shape[2]` of a block map: the number of column blocks per process. */
  function Dim2(m: BlockMap): nat
  {
    if |m| == 0 || |m[0]| == 0 then 0 else |m[0][0]|
  }

  /** Every process has the same grid of `Dim1 x Dim2` blocks, as in a
      tensor. */
  predicate Regular(m: BlockMap)
  {
    && (forall pr :: 0 <= pr < |m| ==> |m[pr]| == Dim1(m))
    && (forall pr, d0 :: 0 <= pr < |m| && 0 <= d0 < |m[pr]| ==> |m[pr][d0]| == Dim2(m))
  }

  /** The arguments of one call: both block maps, the two local shards (a's
      from process `aProc`, b's from process `bProc`), the split axes and the
      block sizes. */
  datatype Setting = Setting(
    aMap: BlockMap, bMap: BlockMap,
    aData: seq<seq<int>>, bData: seq<seq<int>>,
    aProc: nat, bProc: nat, aSplit: nat, bSplit: nat,
    mB: nat, kB: nat, nB: nat)

  /** The column blocks of a that are visited, as `(first, count)`: when b is
      split along its rows, the `shp_b[1]` blocks that follow the ones of the
      processes before `bProc`; otherwise `shp_a[1]` blocks from 0 (source
      lines 793 and 797-801). */
  function ARange(bProc: nat, bSplit: nat, shpA1: nat, shpB1: nat): (nat, nat)
  {
    var offsetA := if bProc != 0 then bProc * shpB1 else 0;
    if bSplit == 0 then (offsetA, shpB1) else (0, shpA1)
  }

  /** The row blocks of b that are visited: when a is split along its columns,
      `shp_a[1]` blocks starting at `aProc * shp_a[2]`; otherwise all
      `shp_b[1]` row blocks (source lines 795 and 809-815). */
  function BRange(aProc: nat, aSplit: nat, shpA1: nat, shpA2: nat, shpB1: nat): (nat, nat)
  {
    var offsetB := if aProc != 0 then aProc * shpA2 else 0;
    if aSplit == 1 then (offsetB, shpA1) else (0, shpB1)
  }

  function RangeA(s: Setting): (nat, nat)
  {
    ARange(s.bProc, s.bSplit, Dim1(s.aMap), Dim1(s.bMap))
  }

  function RangeB(s: Setting): (nat, nat)
  {
    BRange(s.aProc, s.aSplit, Dim1(s.aMap), Dim2(s.aMap), Dim1(s.bMap))
  }

  /** The blocks at offsets `ao` (of a) and `bo` (of b) lie inside the shards:
      the slices are then full `mB x kB` and `kB x nB` blocks. */
  predicate WindowFits(s: Setting, ao: Offset, bo: Offset)
  {
    && ao.row + s.mB <= |s.aData|
    && (forall x :: ao.row <= x < ao.row + s.mB ==> ao.col + s.kB <= |s.aData[x]|)
    && bo.row + s.kB <= |s.bData|
    && (forall k :: bo.row <= k < bo.row + s.kB ==> bo.col + s.nB <= |s.bData[k]|)
  }

  /** Every index the four loops use is inside the maps, and every visited
      pair of blocks fits its shard. */
  predicate Valid(s: Setting)
  {
    var (lo1, n1) := RangeA(s);
    var (lo4, n4) := RangeB(s);
    && Regular(s.aMap) && Regular(s.bMap)
    && s.aProc < |s.aMap| && s.bProc < |s.bMap|
    && lo1 + n1 <= Dim2(s.aMap) && lo4 + n4 <= Dim1(s.bMap)
    && forall i1, i0, j1, j0 ::
         lo1 <= i1 < lo1 + n1 && 0 <= i0 < Dim1(s.aMap) && 0 <= j1 < Dim2(s.bMap) && lo4 <= j0 < lo4 + n4 ==>
         WindowFits(s, s.aMap[s.aProc][i0][i1], s.bMap[s.bProc][j0][j1])
  }

  /** Every visited window of c lies inside c. */
  predicate OutputFits(s: Setting, cRows: nat, cCols: nat)
    requires Valid(s)
  {
    var (lo1, n1) := RangeA(s);
    var (lo4, n4) := RangeB(s);
    forall i1, i0, j1, j0 ::
      lo1 <= i1 < lo1 + n1 && 0 <= i0 < Dim1(s.aMap) && 0 <= j1 < Dim2(s.bMap) && lo4 <= j0 < lo4 + n4 ==>
      s.aMap[s.aProc][i0][i1].row + s.mB <= cRows && s.bMap[s.bProc][j0][j1].col + s.nB <= cCols
  }

  /** Entry `(x, y)` of the product of a's row `x` from column `a1` and b's
      column `y` from row `b0`, over `n` terms. */
  function BlockDot(a: seq<seq<int>>, b: seq<seq<int>>, x: nat, a1: nat, b0: nat, y: nat, n: nat): int
    requires x < |a| && a1 + n <= |a[x]| && b0 + n <= |b|
    requires forall k :: b0 <= k < b0 + n ==> y < |b[k]|
  {
    if n == 0 then 0 else BlockDot(a, b, x, a1, b0, y, n - 1) + a[x][a1 + n - 1] * b[b0 + n - 1][y]
  }

  /** `(x, y)` lies in the window of c that the block pair writes:
      rows of a's block, columns of b's block. */
  predicate InWindow(s: Setting, ao: Offset, bo: Offset, x: nat, y: nat)
  {
    ao.row <= x < ao.row + s.mB && bo.col <= y < bo.col + s.nB
  }

  /** What one block product adds to entry `(x, y)` of c. */
  function Contribution(s: Setting, ao: Offset, bo: Offset, x: nat, y: nat): int
    requires WindowFits(s, ao, bo)
  {
    if InWindow(s, ao, bo, x, y) then BlockDot(s.aData, s.bData, x, ao.col, bo.row, y, s.kB) else 0
  }

  /** Sum over the first `t` row blocks of b visited for fixed a blocks and
      b column block `j1` (the innermost loop). */
  function Sum4(s: Setting, i1: nat, i0: nat, j1: nat, t: nat, x: nat, y: nat): int
    requires Valid(s)
    requires RangeA(s).0 <= i1 < RangeA(s).0 + RangeA(s).1 && i0 < Dim1(s.aMap) && j1 < Dim2(s.bMap)
    requires t <= RangeB(s).1
  {
    if t == 0 then 0
    else
      var j0 := RangeB(s).0 + t - 1;
      Sum4(s, i1, i0, j1, t - 1, x, y) + Contribution(s, s.aMap[s.aProc][i0][i1], s.bMap[s.bProc][j0][j1], x, y)
  }

  /** Sum over the first `t` column blocks of b (the third loop). */
  function Sum3(s: Setting, i1: nat, i0: nat, t: nat, x: nat, y: nat): int
    requires Valid(s)
    requires RangeA(s).0 <= i1 < RangeA(s).0 + RangeA(s).1 && i0 < Dim1(s.aMap)
    requires t <= Dim2(s.bMap)
  {
    if t == 0 then 0 else Sum3(s, i1, i0, t - 1, x, y) + Sum4(s, i1, i0, t - 1, RangeB(s).1, x, y)
  }

  /** Sum over the first `t` row blocks of a (the second loop). */
  function Sum2(s: Setting, i1: nat, t: nat, x: nat, y: nat): int
    requires Valid(s)
    requires RangeA(s).0 <= i1 < RangeA(s).0 + RangeA(s).1
    requires t <= Dim1(s.aMap)
  {
    if t == 0 then 0 else Sum2(s, i1, t - 1, x, y) + Sum3(s, i1, t - 1, Dim2(s.bMap), x, y)
  }

  /** Sum over the first `t` visited column blocks of a (the outer loop). */
  function Sum1(s: Setting, t: nat, x: nat, y: nat): int
    requires Valid(s)
    requires t <= RangeA(s).1
  {
    if t == 0 then 0 else Sum1(s, t - 1, x, y) + Sum2(s, RangeA(s).0 + t - 1, Dim1(s.aMap), x, y)
  }

  /** Everything one call adds to entry `(x, y)` of c. */
  function Added(s: Setting, x: nat, y: nat): int
    requires Valid(s)
  {
    Sum1(s, RangeA(s).1, x, y)
  }

  /** Some visited pair of blocks writes entry `(x, y)` of c. */
  predicate Covered(s: Setting, x: nat, y: nat)
    requires Valid(s)
  {
    var (lo1, n1) := RangeA(s);
    var (lo4, n4) := RangeB(s);
    exists i1, i0, j1, j0 ::
      lo1 <= i1 < lo1 + n1 && 0 <= i0 < Dim1(s.aMap) && 0 <= j1 < Dim2(s.bMap) && lo4 <= j0 < lo4 + n4 &&
      InWindow(s, s.aMap[s.aProc][i0][i1], s.bMap[s.bProc][j0][j1], x, y)
  }

  lemma {:induction false} Sum4Uncovered(s: Setting, i1: nat, i0: nat, j1: nat, t: nat, x: nat, y: nat)
    requires Valid(s)
    requires RangeA(s).0 <= i1 < RangeA(s).0 + RangeA(s).1 && i0 < Dim1(s.aMap) && j1 < Dim2(s.bMap)
    requires t <= RangeB(s).1
    requires !Covered(s, x, y)
    ensures Sum4(s, i1, i0, j1, t, x, y) == 0
  {
    if t > 0 {
      Sum4Uncovered(s, i1, i0, j1, t - 1, x, y);
      var j0 := RangeB(s).0 + t - 1;
      assert !InWindow(s, s.aMap[s.aProc][i0][i1], s.bMap[s.bProc][j0][j1], x, y);
    }
  }

  lemma {:induction false} Sum3Uncovered(s: Setting, i1: nat, i0: nat, t: nat, x: nat, y: nat)
    requires Valid(s)
    requires RangeA(s).0 <= i1 < RangeA(s).0 + RangeA(s).1 && i0 < Dim1(s.aMap)
    requires t <= Dim2(s.bMap)
    requires !Covered(s, x, y)
    ensures Sum3(s, i1, i0, t, x, y) == 0
  {
    if t > 0 {
      Sum3Uncovered(s, i1, i0, t - 1, x, y);
      Sum4Uncovered(s, i1, i0, t - 1, RangeB(s).1, x, y);
    }
  }

  lemma {:induction false} Sum2Uncovered(s: Setting, i1: nat, t: nat, x: nat, y: nat)
    requires Valid(s)
    requires RangeA(s).0 <= i1 < RangeA(s).0 + RangeA(s).1
    requires t <= Dim1(s.aMap)
    requires !Covered(s, x, y)
    ensures Sum2(s, i1, t, x, y) == 0
  {
    if t > 0 {
      Sum2Uncovered(s, i1, t - 1, x, y);
      Sum3Uncovered(s, i1, t - 1, Dim2(s.bMap), x, y);
    }
  }

  lemma {:induction false} Sum1Uncovered(s: Setting, t: nat, x: nat, y: nat)
    requires Valid(s)
    requires t <= RangeA(s).1
    requires !Covered(s, x, y)
    ensures Sum1(s, t, x, y) == 0
  {
    if t > 0 {
      Sum1Uncovered(s, t - 1, x, y);
      Sum2Uncovered(s, RangeA(s).0 + t - 1, Dim1(s.aMap), x, y);
    }
  }

  /** An entry of c that no visited window holds receives nothing. */
  lemma UncoveredEntryUnchanged(s: Setting, x: nat, y: nat)
    requires Valid(s)
    requires !Covered(s, x, y)
    ensures Added(s, x, y) == 0
  {
    Sum1Uncovered(s, RangeA(s).1, x, y);
  }

  /** Both operands split along rows (the 0/0 path): kB is P / procs, b's
      map holds a single row block per process, and so the setter visits
      exactly one column block of a for b's process `bProc`, block `bProc`
      (source lines 283-297, 416-421 and 793-801). */
  lemma ZeroZeroVisitsOneColumnBlock(m: nat, p: nat, q: nat, nB: nat, procs: nat, bProc: nat, shpA1: nat)
    requires 1 <= procs <= p && nB > 0
    ensures var kB := ContractionBlock([m, p], [p, q], Some(0), Some(0), procs);
            && kB > 0
            && MapShape(p, q, kB, nB, 0, procs).0 == 1
            && ARange(bProc, 0, shpA1, MapShape(p, q, kB, nB, 0, procs).0) == (bProc, 1)
  {
    OneContractionBlockPerProcess(p, procs);
  }

  /** Both operands split along columns (the 1/1 path): every process holds
      all M rows of a, so mB is M, kB is P / procs, and a's map is a single
      block per process. Its two block dimensions are then equal, which is
      why the setter ranging a's column blocks and b's row blocks over
      `shp_a[1]` where `shp_a[2]` is meant still visits the intended blocks
      (source lines 283-297, 371-376, 797-801 and 809-815). */
  lemma OneOneMapIsOneBlock(m: nat, p: nat, q: nat, procs: nat)
    requires 1 <= procs <= p && m > 0
    ensures var kB := ContractionBlock([m, p], [p, q], Some(1), Some(1), procs);
            && kB > 0
            && MapShape(m, p, m, kB, 1, procs) == (1, 1)
  {
    OneContractionBlockPerProcess(p, procs);
  }

  /** One block product added into its window of c (source lines 817-827). */
  method AddBlockProduct(s: Setting, c: array2<int>, i1: nat, i0: nat, j1: nat, j0: nat)
    requires Valid(s) && OutputFits(s, c.Length0, c.Length1)
    requires RangeA(s).0 <= i1 < RangeA(s).0 + RangeA(s).1 && i0 < Dim1(s.aMap)
    requires j1 < Dim2(s.bMap) && RangeB(s).0 <= j0 < RangeB(s).0 + RangeB(s).1
    modifies c
    ensures forall x, y :: 0 <= x < c.Length0 && 0 <= y < c.Length1 ==>
              c[x, y] == old(c[x, y]) + Contribution(s, s.aMap[s.aProc][i0][i1], s.bMap[s.bProc][j0][j1], x, y)
  {
    var ao := s.aMap[s.aProc][i0][i1];
    var bo := s.bMap[s.bProc][j0][j1];
    assert WindowFits(s, ao, bo);
    assert ao.row + s.mB <= c.Length0 && bo.col + s.nB <= c.Length1;
    forall x, y | ao.row <= x < ao.row + s.mB && bo.col <= y < bo.col + s.nB {
      c[x, y] := c[x, y] + BlockDot(s.aData, s.bData, x, ao.col, bo.row, y, s.kB);
    }
  }

  /** The innermost loop, over the visited row blocks of b (source lines
      809-815). */
  method AddOverBRowBlocks(s: Setting, c: array2<int>, i1: nat, i0: nat, j1: nat)
    requires Valid(s) && OutputFits(s, c.Length0, c.Length1)
    requires RangeA(s).0 <= i1 < RangeA(s).0 + RangeA(s).1 && i0 < Dim1(s.aMap) && j1 < Dim2(s.bMap)
    modifies c
    ensures forall x, y :: 0 <= x < c.Length0 && 0 <= y < c.Length1 ==>
              c[x, y] == old(c[x, y]) + Sum4(s, i1, i0, j1, RangeB(s).1, x, y)
  {
    var lo4, n4 := RangeB(s).0, RangeB(s).1;
    var t4 := 0;
    while t4 < n4
      invariant 0 <= t4 <= n4
      invariant forall x, y :: 0 <= x < c.Length0 && 0 <= y < c.Length1 ==>
                  c[x, y] == old(c[x, y]) + Sum4(s, i1, i0, j1, t4, x, y)
    {
      AddBlockProduct(s, c, i1, i0, j1, lo4 + t4);
      t4 := t4 + 1;
    }
  }

  /** The third loop, over the column blocks of b (source lines 806-808). */
  method AddOverBColBlocks(s: Setting, c: array2<int>, i1: nat, i0: nat)
    requires Valid(s) && OutputFits(s, c.Length0, c.Length1)
    requires RangeA(s).0 <= i1 < RangeA(s).0 + RangeA(s).1 && i0 < Dim1(s.aMap)
    modifies c
    ensures forall x, y :: 0 <= x < c.Length0 && 0 <= y < c.Length1 ==>
              c[x, y] == old(c[x, y]) + Sum3(s, i1, i0, Dim2(s.bMap), x, y)
  {
    var j1 := 0;
    while j1 < Dim2(s.bMap)
      invariant 0 <= j1 <= Dim2(s.bMap)
      invariant forall x, y :: 0 <= x < c.Length0 && 0 <= y < c.Length1 ==>
                  c[x, y] == old(c[x, y]) + Sum3(s, i1, i0, j1, x, y)
    {
      AddOverBRowBlocks(s, c, i1, i0, j1);
      j1 := j1 + 1;
    }
  }

  /** The second loop, over the row blocks of a (source lines 803-805). */
  method AddOverARowBlocks(s: Setting, c: array2<int>, i1: nat)
    requires Valid(s) && OutputFits(s, c.Length0, c.Length1)
    requires RangeA(s).0 <= i1 < RangeA(s).0 + RangeA(s).1
    modifies c
    ensures forall x, y :: 0 <= x < c.Length0 && 0 <= y < c.Length1 ==>
              c[x, y] == old(c[x, y]) + Sum2(s, i1, Dim1(s.aMap), x, y)
  {
    var i0 := 0;
    while i0 < Dim1(s.aMap)
      invariant 0 <= i0 <= Dim1(s.aMap)
      invariant forall x, y :: 0 <= x < c.Length0 && 0 <= y < c.Length1 ==>
                  c[x, y] == old(c[x, y]) + Sum2(s, i1, i0, x, y)
    {
      AddOverBColBlocks(s, c, i1, i0);
      i0 := i0 + 1;
    }
  }

  /** `__mm_c_block_setter` itself, the outer loop over the visited column
      blocks of a (source lines 797-801). Entry `(x, y)` of c grows by the
      sum, over every visited pair of blocks whose window holds `(x, y)`, of
      that entry of the block product. */
  method SetBlocks(s: Setting, c: array2<int>)
    requires Valid(s) && OutputFits(s, c.Length0, c.Length1)
    modifies c
    ensures forall x, y :: 0 <= x < c.Length0 && 0 <= y < c.Length1 ==> c[x, y] == old(c[x, y]) + Added(s, x, y)
    ensures forall x, y :: 0 <= x < c.Length0 && 0 <= y < c.Length1 && !Covered(s, x, y) ==> c[x, y] == old(c[x, y])
  {
    var lo1, n1 := RangeA(s).0, RangeA(s).1;
    var t1 := 0;
    while t1 < n1
      invariant 0 <= t1 <= n1
      invariant forall x, y :: 0 <= x < c.Length0 && 0 <= y < c.Length1 ==> c[x, y] == old(c[x, y]) + Sum1(s, t1, x, y)
    {
      AddOverARowBlocks(s, c, lo1 + t1);
      t1 := t1 + 1;
    }
    forall x: nat, y: nat | !Covered(s, x, y) ensures Added(s, x, y) == 0 {
      UncoveredEntryUnchanged(s, x, y);
    }
  }
}

=== FILE: block_sizes.dfy ===
/** Block sizes and remainder flags of the both-split `matmul` path
    (source lines 282-334). Every process computes them from the gathered
    table of local shard shapes (`lshape_map`), which is an input here. */
module BlockSizes {
  import opened Common

  /** One row of `lshape_map`: the local shapes of a and b on one process,
      as far as the block sizes read them. */
  datatype LocalShapes = LocalShapes(
    aRows: nat,   // a.lshape[-2]
    aCols: nat,   // a.lshape[-1]
    bFirst: nat,  // b.lshape[0]
    bRows: nat,   // b.lshape[-2], the same axis as bFirst for matrices
    bCols: nat)   // b.lshape[-1]

  /** What one process knows after the gathers: the block sizes and its own
      four remainder flags. */
  datatype Blocking = Blocking(
    kB: nat, mB: nat, nB: nat,
    remA: bool,     // a's local columns are not covered by whole kB blocks
    remB: bool,     // b's local rows are not covered by whole kB blocks
    remAOut: bool,  // a's local rows are not covered by whole mB blocks
    remBOut: bool)  // b's local columns are not covered by whole nB blocks

  /** The contraction block size kB (source lines 283-297) on `procs`
      processes, for operands of global shapes `aShape` and `bShape` (vectors
      already expanded to matrices). Both split axes are compared with the
      last two axes of a, whatever the number of dimensions; a pair that
      matches none of the cases leaves kB at 0. */
  function ContractionBlock(aShape: seq<nat>, bShape: seq<nat>, aSplit: Option<nat>, bSplit: Option<nat>,
                            procs: nat): (kB: nat)
    requires |aShape| >= 2 && |bShape| >= 1 && procs >= 1
    ensures kB <= aShape[|aShape| - 1]
    ensures var d, p := |aShape|, aShape[|aShape| - 1];
            && (aSplit == Some(d - 1) && bSplit == Some(d - 2) && p == bShape[0] ==> kB == p / procs)
            && (aSplit == Some(d - 2) && bSplit == Some(d - 1) ==> kB == p)
            && (aSplit == Some(d - 1) && bSplit != Some(d - 2) ==> kB == p / procs)
            && (bSplit == Some(d - 2) && p == bShape[0] ==> kB == p / procs)
            && ((aSplit != Some(d - 1) && bSplit != Some(d - 2) && !(aSplit == Some(d - 2) && bSplit == Some(d - 1)))
                  ==> kB == 0)
  {
    var d, p := |aShape|, aShape[|aShape| - 1];
    var q, k := p / procs, bShape[0] / procs;
    QuotientAtMost(p, procs);
    var lastA, penultA := aSplit == Some(d - 1), aSplit == Some(d - 2);
    var lastB, penultB := bSplit == Some(d - 1), bSplit == Some(d - 2);
    if lastA && penultB then Min(q, k)
    else if penultA && lastB then p
    else if lastA then q
    else if penultB then
      if k < p then k else p
    else 0
  }

  /** A remainder flag: `extent` is not an exact multiple of the block, or
      kB is 1 and `probe` is not 1 (source lines 299-302 and 319-322; the
      probe is the extent itself except for b's rows, where the source
      divides `b.lshape[0]` and probes `b.lshape[-2]`). */
  function RemFlag(extent: nat, block: nat, kB: nat, probe: nat): bool
    requires block > 0
  {
    extent % block != 0 || (kB == 1 && probe != 1)
  }

  /** An unflagged extent is covered exactly by whole blocks; with kB == 1 an
      unflagged probe is a single row or column. */
  lemma UnflaggedExtentIsWholeBlocks(extent: nat, block: nat, kB: nat, probe: nat)
    requires block > 0
    requires !RemFlag(extent, block, kB, probe)
    ensures (extent / block) * block == extent
    ensures kB == 1 ==> probe == 1
  {
  }

  function MinARows(m: seq<LocalShapes>): (r: nat)
    requires |m| > 0
    ensures forall pr :: 0 <= pr < |m| ==> r <= m[pr].aRows
    ensures exists pr :: 0 <= pr < |m| && r == m[pr].aRows
  {
    if |m| == 1 then m[0].aRows
    else
      var rest := MinARows(m[1..]);
      assert forall pr :: 1 <= pr < |m| ==> m[pr] == m[1..][pr - 1];
      if m[0].aRows <= rest then m[0].aRows else rest
  }

  function MinBCols(m: seq<LocalShapes>): (r: nat)
    requires |m| > 0
    ensures forall pr :: 0 <= pr < |m| ==> r <= m[pr].bCols
    ensures exists pr :: 0 <= pr < |m| && r == m[pr].bCols
  {
    if |m| == 1 then m[0].bCols
    else
      var rest := MinBCols(m[1..]);
      assert forall pr :: 1 <= pr < |m| ==> m[pr] == m[1..][pr - 1];
      if m[0].bCols <= rest then m[0].bCols else rest
  }

  /** Lines 299-322 run to the end: no division is by zero, and b's local
      shape fits the `len(a.gshape)`-wide row of `lshape_map` it is written
      into at line 310. */
  predicate BlockingDefined(aShape: seq<nat>, bShape: seq<nat>, aSplit: Option<nat>, bSplit: Option<nat>,
                            lshapeMap: seq<LocalShapes>)
    requires |aShape| >= 2 && |bShape| >= 1 && |lshapeMap| > 0
  {
    ContractionBlock(aShape, bShape, aSplit, bSplit, |lshapeMap|) > 0 &&
    |aShape| == |bShape| &&
    MinARows(lshapeMap) > 0 && MinBCols(lshapeMap) > 0
  }

  /** Block sizes and this process's remainder flags (source lines 282-322).
      `lshapeMap` is the gathered table, one row per process; `rank` is this
      process. A zero block size makes Python's `%` raise ZeroDivisionError;
      writing b's local shape into a row as wide as a has dimensions makes
      torch raise RuntimeError when the two differ, after kB was used and
      before mB and nB exist. */
  function ComputeBlocking(aShape: seq<nat>, bShape: seq<nat>, aSplit: Option<nat>, bSplit: Option<nat>,
                           lshapeMap: seq<LocalShapes>, rank: nat): (r: Result<Blocking>)
    requires |aShape| >= 2 && |bShape| >= 1
    requires rank < |lshapeMap|
    ensures r.Ok? <==> BlockingDefined(aShape, bShape, aSplit, bSplit, lshapeMap)
    ensures var kB := ContractionBlock(aShape, bShape, aSplit, bSplit, |lshapeMap|);
            && (r == Err(ZeroDivisionError) <==>
                  kB == 0 || (|aShape| == |bShape| && (MinARows(lshapeMap) == 0 || MinBCols(lshapeMap) == 0)))
            && (r == Err(RuntimeError) <==> kB > 0 && |aShape| != |bShape|)
    ensures r.Err? ==> r.error == ZeroDivisionError || r.error == RuntimeError
    ensures r.Ok? ==>
              var bl := r.value;
              var own := lshapeMap[rank];
              && bl.kB == ContractionBlock(aShape, bShape, aSplit, bSplit, |lshapeMap|) > 0
              // mB and nB are the smallest local extents over all processes
              && (forall pr :: 0 <= pr < |lshapeMap| ==> 0 < bl.mB <= lshapeMap[pr].aRows)
              && (exists pr :: 0 <= pr < |lshapeMap| && bl.mB == lshapeMap[pr].aRows)
              && (forall pr :: 0 <= pr < |lshapeMap| ==> 0 < bl.nB <= lshapeMap[pr].bCols)
              && (exists pr :: 0 <= pr < |lshapeMap| && bl.nB == lshapeMap[pr].bCols)
              // a flag is clear exactly when whole blocks cover the local extent
              // (and, when kB is 1, the probed extent is 1)
              && (!bl.remA <==> own.aCols % bl.kB == 0 && (bl.kB == 1 ==> own.aCols == 1))
              && (!bl.remB <==> own.bFirst % bl.kB == 0 && (bl.kB == 1 ==> own.bRows == 1))
              && (!bl.remAOut <==> own.aRows % bl.mB == 0 && (bl.kB == 1 ==> own.aRows == 1))
              && (!bl.remBOut <==> own.bCols % bl.nB == 0 && (bl.kB == 1 ==> own.bCols == 1))
  {
    var kB := ContractionBlock(aShape, bShape, aSplit, bSplit, |lshapeMap|);
    var own := lshapeMap[rank];
    if kB == 0 then Err(ZeroDivisionError)
    else if |aShape| != |bShape| then Err(RuntimeError)
    else
      var mB := MinARows(lshapeMap);
      var nB := MinBCols(lshapeMap);
      if mB == 0 || nB == 0 then Err(ZeroDivisionError)
      else
        Ok(Blocking(kB, mB, nB,
                    RemFlag(own.aCols, kB, kB, own.aCols), RemFlag(own.bFirst, kB, kB, own.bRows),
                    RemFlag(own.aRows, mB, kB, own.aRows), RemFlag(own.bCols, nB, kB, own.bCols)))
  }

  /** With three dimensions the chain still compares the splits with a's
      last two axes, so operands split 0/0 or 1/0, which the dispatch hands
      to the block strategies, leave kB at 0 and the remainder test at line
      299 raises ZeroDivisionError on every process. */
  lemma ThreeDimRowSplitOfBRaises(aShape: seq<nat>, bShape: seq<nat>, aSplit: nat,
                                   lshapeMap: seq<LocalShapes>, rank: nat)
    requires |aShape| == 3 && |bShape| == 3 && aSplit <= 1 && rank < |lshapeMap|
    ensures ComputeBlocking(aShape, bShape, Some(aSplit), Some(0), lshapeMap, rank) == Err(ZeroDivisionError)
  {
  }

  /** A 3-D a split on rows against a matrix b split on columns: b's split
      is a's axis d - 2, so kB is positive whenever b has at least one row
      per process, and the write of b's two-entry local shape into the
      three-wide row of `lshape_map` raises RuntimeError. */
  lemma MixedRankOperandsRaise(aShape: seq<nat>, bShape: seq<nat>, lshapeMap: seq<LocalShapes>, rank: nat)
    requires |aShape| == 3 && |bShape| == 2 && rank < |lshapeMap|
    requires aShape[2] > 0 && bShape[0] >= |lshapeMap|
    ensures ComputeBlocking(aShape, bShape, Some(0), Some(1), lshapeMap, rank) == Err(RuntimeError)
  {
    LowerQuotient(bShape[0], |lshapeMap|, 1);
  }

  /** Column `rem_map[:, 1, 0]` after the all-reduce (source lines 327-334):
      entry `pr` is the b-row remainder flag process `pr` computed for
      itself. The map is only built once every division succeeded. */
  function BRowFlags(aShape: seq<nat>, bShape: seq<nat>, aSplit: Option<nat>, bSplit: Option<nat>,
                     lshapeMap: seq<LocalShapes>): (flags: seq<bool>)
    requires |aShape| >= 2 && |bShape| >= 1 && |lshapeMap| > 0
    requires BlockingDefined(aShape, bShape, aSplit, bSplit, lshapeMap)
    ensures |flags| == |lshapeMap|
    ensures forall pr :: 0 <= pr < |flags| ==>
              var own := ComputeBlocking(aShape, bShape, aSplit, bSplit, lshapeMap, pr);
              own.Ok? && flags[pr] == own.value.remB
  {
    var kB := ContractionBlock(aShape, bShape, aSplit, bSplit, |lshapeMap|);
    seq(|lshapeMap|, pr requires 0 <= pr < |lshapeMap| => RemFlag(lshapeMap[pr].bFirst, kB, kB, lshapeMap[pr].bRows))
  }

  /** Column `rem_map[:, 0, 1]` after the all-reduce: entry `pr` is the
      a-column remainder flag process `pr` computed for itself. */
  function AColFlags(aShape: seq<nat>, bShape: seq<nat>, aSplit: Option<nat>, bSplit: Option<nat>,
                     lshapeMap: seq<LocalShapes>): (flags: seq<bool>)
    requires |aShape| >= 2 && |bShape| >= 1 && |lshapeMap| > 0
    requires BlockingDefined(aShape, bShape, aSplit, bSplit, lshapeMap)
    ensures |flags| == |lshapeMap|
    ensures forall pr :: 0 <= pr < |flags| ==>
              var own := ComputeBlocking(aShape, bShape, aSplit, bSplit, lshapeMap, pr);
              own.Ok? && flags[pr] == own.value.remA
  {
    var kB := ContractionBlock(aShape, bShape, aSplit, bSplit, |lshapeMap|);
    seq(|lshapeMap|, pr requires 0 <= pr < |lshapeMap| => RemFlag(lshapeMap[pr].aCols, kB, kB, lshapeMap[pr].aCols))
  }

  /** With kB = P / procs and procs <= P, the number of kB blocks per process,
      P / kB / procs, is exactly one. This is why the 1/1 branch of the block
      setter, which ranges a's column blocks over the count of its row blocks,
      still visits every block: both counts are 1. */
  lemma OneContractionBlockPerProcess(p: nat, procs: nat)
    requires 1 <= procs <= p
    ensures p / procs > 0 && p / (p / procs) / procs == 1
  {
    var k := p / procs;
    LowerQuotient(p, procs, 1);
    assert p == procs * k + p % procs;
    MulMono(procs, 1, k);
    assert k * procs <= p;
    LowerQuotient(p, k, procs);
    var q := p / k;
    assert p < k * (2 * procs);
    UpperQuotient(p, k, 2 * procs);
    LowerQuotient(q, procs, 1);
    UpperQuotient(q, procs, 2);
  }

  /** p / d never exceeds p. */
  lemma QuotientAtMost(p: nat, d: nat)
    requires d > 0
    ensures p / d <= p
  {
    MulMono(p / d, 1, d);
    assert d * (p / d) <= p;
  }

  /** d * x <= p implies x <= p / d. */
  lemma LowerQuotient(p: nat, d: nat, x: nat)
    requires d > 0 && d * x <= p
    ensures x <= p / d
  {
    var q := p / d;
    assert p < d * q + d;
    if x > q {
      MulMono(d, q + 1, x);
      assert false;
    }
  }

  /** p < d * x implies p / d < x. */
  lemma UpperQuotient(p: nat, d: nat, x: nat)
    requires d > 0 && p < d * x
    ensures p / d < x
  {
    var q := p / d;
    assert d * q <= p;
    if q >= x {
      MulMono(d, x, q);
      assert false;
    }
  }
}

=== FILE: common.dfy ===
/** Shared vocabulary of the model: optional values, results carrying the
    Python exception the source would raise, and small sums over tables
    that every process holds after a gather. */
module Common {

  datatype Option<+T> = None | Some(value: T)

  /** The exception classes the modelled code raises. */
  datatype PyError =
    | ValueError
    | TypeError
    | IndexError
    | RuntimeError
    | ZeroDivisionError
    | OverflowError
    | NotImplementedError

  datatype Result<+T> = Ok(value: T) | Err(error: PyError)

  /** Strictly increasing, as a list of ranks is. */
  predicate Ascending(s: seq<nat>)
  {
    forall i, j :: 0 <= i < j < |s| ==> s[i] < s[j]
  }

  /** Sum of the first `n` entries of a table (Python `sum(t[:n])`). */
  function SumTo(t: seq<nat>, n: nat): nat
    requires n <= |t|
  {
    if n == 0 then 0 else SumTo(t, n - 1) + t[n - 1]
  }

  /** Running sums are monotone in the prefix length. */
  lemma {:induction false} SumToMono(t: seq<nat>, i: nat, j: nat)
    requires i <= j <= |t|
    ensures SumTo(t, i) <= SumTo(t, j)
  {
    if i < j {
      SumToMono(t, i, j - 1);
    }
  }

  /** A sum over a prefix only looks at that prefix. */
  lemma {:induction false} SumToPrefix(t: seq<nat>, u: seq<nat>, n: nat)
    requires n <= |t| && n <= |u|
    requires t[..n] == u[..n]
    ensures SumTo(t, n) == SumTo(u, n)
  {
    if n > 0 {
      assert t[..n - 1] == u[..n - 1] by {
        assert t[..n - 1] == t[..n][..n - 1];
        assert u[..n - 1] == u[..n][..n - 1];
      }
      assert t[n - 1] == t[..n][n - 1] == u[..n][n - 1] == u[n - 1];
      SumToPrefix(t, u, n - 1);
    }
  }

  /** Number of set flags in a table of flags. */
  function CountTrue(flags: seq<bool>): (c: nat)
    ensures c <= |flags|
    ensures c == 0 <==> forall i :: 0 <= i < |flags| ==> !flags[i]
  {
    if flags == [] then 0
    else CountTrue(flags[..|flags| - 1]) + (if flags[|flags| - 1] then 1 else 0)
  }

  function Min(x: int, y: int): (m: int)
    ensures m <= x && m <= y && (m == x || m == y)
  {
    if x <= y then x else y
  }

  lemma {:induction false} MulMono(d: nat, a: nat, b: nat)
    requires a <= b
    ensures d * a <= d * b
  {
    if a < b {
      MulMono(d, a, b - 1);
      assert d * b == d * (b - 1) + d;
    }
  }
}

=== FILE: dispatch.dfy ===
/** Which strategy `matmul` and `dot` pick for a pair of distributed arrays,
    and which split axis the result gets. Only the decision is modelled: the
    local products and the collective sums that follow each branch are not. */
module Dispatch {
  import opened Common

  /** The part of a DNDarray that the dispatch looks at: its global shape and
      its split axis (None when every process holds the whole array). */
  datatype DArray = DArray(gshape: seq<nat>, split: Option<nat>)

  /** The branches of `matmul`, in the order the source tests them. */
  datatype Strategy =
    | TorchLocal     // neither split: plain local product on every process
    | ResplitRows    // neither split, allow_resplit: a is resplit along rows, then summed
    | LocalProduct   // 0/None or None/1 on matrices: each process multiplies its shard
    | ContractA      // 1/None: a split on the contraction axis, partial products summed
    | ContractB      // None/0: b split on the contraction axis, partial products summed
    | RowsVector     // 0/None reached only with a vector operand
    | ColsVector     // None/1 reached only with a vector operand
    | Block00        // both split along rows: b is broadcast block by block
    | Block11        // both split along columns: a is broadcast block by block
    | Block01        // a by rows, b by columns: b is broadcast, no remainders
    | Block10        // a by columns, b by rows: local partial product, then a sum

  /** The decision: strategy, split axis of the result, and whether a vector
      operand was expanded (the result is then squeezed). */
  datatype MatmulPlan = MatmulPlan(strategy: Strategy, split: Option<nat>, vectorFlag: bool)

  /** The documented policy: a's split if a is split, else b's split. */
  function PolicySplit(a: Option<nat>, b: Option<nat>): Option<nat>
  {
    if a.Some? then a else b
  }

  /** `manipulations.expand_dims` (not part of this model) inserts an axis of
      extent 1; a split axis at or after the new axis moves up by one. */
  function ExpandDims(x: DArray, axis: nat): (y: DArray)
    requires axis <= |x.gshape|
    ensures |y.gshape| == |x.gshape| + 1 && y.gshape[axis] == 1
    ensures y.gshape[..axis] == x.gshape[..axis] && y.gshape[axis + 1..] == x.gshape[axis..]
    ensures y.split.None? <==> x.split.None?
  {
    DArray(x.gshape[..axis] + [1] + x.gshape[axis..],
           match x.split
           case None => None
           case Some(s) => Some(if s >= axis then s + 1 else s))
  }

  function Last(s: seq<nat>): nat
    requires |s| > 0
  {
    s[|s| - 1]
  }

  predicate IsVector(x: DArray)
  {
    |x.gshape| < 2
  }

  /** The operands as the split branches see them: vectors expanded, a to a
      row (axis 0), b to a column (axis 1). */
  function ExpandA(a: DArray): (r: DArray)
    requires |a.gshape| >= 1
    ensures |r.gshape| >= 2
  {
    if |a.gshape| < 2 then ExpandDims(a, 0) else a
  }

  function ExpandB(b: DArray): (r: DArray)
    requires |b.gshape| >= 1
    ensures |r.gshape| >= 2
  {
    if |b.gshape| < 2 then ExpandDims(b, 1) else b
  }

  predicate UnsupportedSplit(s: Option<nat>)
  {
    s.Some? && s.value >= 2
  }

  /** Contraction-dimension check of `matmul` (source lines 156-160). Python's
      `gshape[-1]` on a 0-d array raises IndexError, and so does the error
      message's `b.gshape[-2]` when a mismatched b is a vector: only a
      mismatch against a b of two or more dimensions reaches ValueError. */
  function ShapeCheck(a: DArray, b: DArray): (r: Option<PyError>)
    ensures r == None <==> |a.gshape| > 0 && |b.gshape| > 0 && Last(a.gshape) == b.gshape[0]
    ensures r == Some(ValueError) <==>
              |a.gshape| > 0 && |b.gshape| >= 2 && Last(a.gshape) != b.gshape[0]
    ensures r.Some? && r != Some(ValueError) ==> r == Some(IndexError)
  {
    if |a.gshape| == 0 || |b.gshape| == 0 then Some(IndexError)
    else if Last(a.gshape) != b.gshape[0] then
      if |b.gshape| < 2 then Some(IndexError) else Some(ValueError)
    else None
  }

  /** The branch chain of source lines 204-280, on the expanded operands. */
  function SplitBranch(a: DArray, b: DArray, vectorFlag: bool, bothVec: bool): Result<MatmulPlan>
    requires |a.gshape| >= 2 && |b.gshape| >= 2
  {
    var rowsA := a.gshape[|a.gshape| - 2];
    var colsB := b.gshape[1];
    if ((a.split == Some(0) && b.split.None?) || (a.split.None? && b.split == Some(1))) && !vectorFlag then
      var split := if a.split.Some? then a.split else b.split;
      Ok(MatmulPlan(LocalProduct, if !vectorFlag then split else Some(0), vectorFlag))
    else if a.split == Some(1) && b.split.None? then
      Ok(MatmulPlan(ContractA, if colsB > 1 then a.split else Some(0), vectorFlag))
    else if a.split.None? && b.split == Some(0) then
      Ok(MatmulPlan(ContractB, if rowsA > 1 then b.split else Some(0), vectorFlag))
    else if a.split == Some(0) && b.split.None? then
      var split := if colsB > 1 then a.split else Some(0);
      Ok(MatmulPlan(RowsVector, if !vectorFlag then split else Some(0), vectorFlag))
    else if a.split.None? && b.split == Some(1) then
      var split := if a.gshape[1] > 1 then b.split else Some(0);
      Ok(MatmulPlan(ColsVector, if !vectorFlag then split else Some(0), vectorFlag))
    else if a.split == Some(0) && b.split == Some(0) then
      Ok(MatmulPlan(Block00, if vectorFlag then Some(0) else a.split, vectorFlag))
    else if a.split == Some(1) && b.split == Some(1) then
      Ok(MatmulPlan(Block11, if vectorFlag then Some(0) else a.split, vectorFlag))
    else if a.split == Some(0) && b.split == Some(1) then
      Ok(MatmulPlan(Block01, if vectorFlag then Some(0) else a.split, vectorFlag))
    else if a.split == Some(1) && b.split == Some(0) then
      var split := if colsB > 1 then a.split else Some(0);
      var split' := if !vectorFlag then split else Some(0);
      Ok(MatmulPlan(Block10, if !bothVec then split' else None, vectorFlag))
    else
      Err(NotImplementedError)
  }

  /** `matmul(a, b, allow_resplit)` as a decision (source lines 156-280 and
      356, results returned at 173-184, 214, 228, 242, 257, 268, 591, 711,
      760 and 783). */
  function Matmul(a: DArray, b: DArray, allowResplit: bool): (r: Result<MatmulPlan>)
    // the contraction check comes first, before anything else is decided
    ensures ShapeCheck(a, b).Some? ==> r == Err(ShapeCheck(a, b).value)
    ensures |a.gshape| > 0 && |b.gshape| >= 2 && Last(a.gshape) != b.gshape[0] ==> r == Err(ValueError)
    ensures |a.gshape| > 0 && |b.gshape| == 1 && Last(a.gshape) != b.gshape[0] ==> r == Err(IndexError)
    // neither operand split: the result is not split either
    ensures ShapeCheck(a, b).None? && a.split.None? && b.split.None? ==>
              r.Ok? && r.value.split.None? && !r.value.vectorFlag &&
              (r.value.strategy == ResplitRows <==> allowResplit && !IsVector(a) && !IsVector(b))
    // every other error is an unsupported split axis
    ensures ShapeCheck(a, b).None? ==>
              (r == Err(NotImplementedError) <==>
                 !(a.split.None? && b.split.None?) &&
                 (UnsupportedSplit(ExpandA(a).split) || UnsupportedSplit(ExpandB(b).split)))
    ensures r.Err? ==> ShapeCheck(a, b).Some? || r.error == NotImplementedError
    // each supported pair of split axes selects exactly one block strategy
    ensures r.Ok? ==>
              (r.value.strategy == Block00 <==> ExpandA(a).split == Some(0) && ExpandB(b).split == Some(0)) &&
              (r.value.strategy == Block11 <==> ExpandA(a).split == Some(1) && ExpandB(b).split == Some(1)) &&
              (r.value.strategy == Block01 <==> ExpandA(a).split == Some(0) && ExpandB(b).split == Some(1)) &&
              (r.value.strategy == Block10 <==> ExpandA(a).split == Some(1) && ExpandB(b).split == Some(0))
    // the vector flag records an expanded operand
    ensures r.Ok? && !(a.split.None? && b.split.None?) ==> r.value.vectorFlag == (IsVector(a) || IsVector(b))
    // matrices: the documented policy, except that a split along its columns
    // with a single-column result gives a result split along rows
    ensures r.Ok? && |a.gshape| == 2 && |b.gshape| == 2 ==>
              r.value.split == (if a.split == Some(1) && b.split != Some(1) && b.gshape[1] <= 1 then Some(0)
                                else PolicySplit(a.split, b.split))
    // a vector operand forces split 0, except that two split vectors give an
    // unsplit scalar and a split row vector times a replicated matrix with more
    // than one column keeps split 1 (as the docstring at lines 108-109 says)
    ensures r.Ok? && (IsVector(a) || IsVector(b)) && !(a.split.None? && b.split.None?) ==>
              r.value.split == (if r.value.strategy == Block10 && IsVector(a) && IsVector(b) then None
                                else if r.value.strategy == ContractA && !IsVector(b) && b.gshape[1] > 1 then Some(1)
                                else Some(0))
  {
    match ShapeCheck(a, b)
    case Some(e) => Err(e)
    case None =>
      if a.split.None? && b.split.None? then
        if |a.gshape| < 2 || |b.gshape| < 2 || !allowResplit then Ok(MatmulPlan(TorchLocal, None, false))
        else Ok(MatmulPlan(ResplitRows, None, false))
      else
        var vectorFlag := |a.gshape| < 2 || |b.gshape| < 2;
        var bothVec := |a.gshape| < 2 && |b.gshape| < 2;
        SplitBranch(ExpandA(a), ExpandB(b), vectorFlag, bothVec)
  }

  /** The operands `dot` accepts: Python scalars or DNDarrays. */
  datatype DotOperand = PyScalar | Tensor(arr: DArray)

  datatype DotPlan =
    | Multiply                                     // a scalar operand: elementwise product
    | Inner(chunkAxis: Option<nat>, allreduce: bool) // two vectors: local dot on one chunk, summed
    | MatrixProduct(plan: MatmulPlan)              // two matrices: `matmul(a, b)`

  function NumDims(x: DotOperand): nat
  {
    if x.PyScalar? then 0 else |x.arr.gshape|
  }

  /** `is_distributed()`: split and more than one process. */
  predicate IsDistributed(x: DArray, procs: nat)
  {
    x.split.Some? && procs > 1
  }

  /** `dot(a, b)` on `procs` processes (source lines 37-77). With neither
      vector split, `torch.dot` sees both whole vectors and raises
      RuntimeError when their lengths differ. */
  function Dot(a: DotOperand, b: DotOperand, procs: nat): (r: Result<DotPlan>)
    ensures NumDims(a) == 0 || NumDims(b) == 0 <==> r == Ok(Multiply)
    ensures NumDims(a) == 1 && NumDims(b) == 1 && a.arr.split.None? && b.arr.split.None? ==>
              (r.Ok? <==> a.arr.gshape[0] == b.arr.gshape[0]) && (r.Err? ==> r.error == RuntimeError)
    ensures NumDims(a) == 1 && NumDims(b) == 1 && (a.arr.split.Some? || b.arr.split.Some?) ==> r.Ok?
    ensures NumDims(a) == 1 && NumDims(b) == 1 && r.Ok? ==>
              r.value.Inner? &&
              r.value.chunkAxis == PolicySplit(a.arr.split, b.arr.split) &&
              (r.value.allreduce <==> IsDistributed(a.arr, procs) || IsDistributed(b.arr, procs))
    ensures NumDims(a) == 2 && NumDims(b) == 2 ==>
              match Matmul(a.arr, b.arr, false)
              case Ok(p) => r == Ok(MatrixProduct(p))
              case Err(e) => r == Err(e)
    ensures r == Err(NotImplementedError) <==>
              NumDims(a) > 0 && NumDims(b) > 0 && !(NumDims(a) == 1 && NumDims(b) == 1) &&
              (NumDims(a) != 2 || NumDims(b) != 2 ||
               Matmul(a.arr, b.arr, false) == Err(NotImplementedError))
  {
    if NumDims(a) == 0 || NumDims(b) == 0 then Ok(Multiply)
    else if NumDims(a) == 1 && NumDims(b) == 1 then
      if a.arr.split.None? && b.arr.split.None? && a.arr.gshape[0] != b.arr.gshape[0] then Err(RuntimeError)
      else
        var axis := if a.arr.split.None? && b.arr.split.None? then None
                    else if a.arr.split.Some? then a.arr.split else b.arr.split;
        Ok(Inner(axis, IsDistributed(a.arr, procs) || IsDistributed(b.arr, procs)))
    else if NumDims(a) == 2 && NumDims(b) == 2 then
      match Matmul(a.arr, b.arr, false)
      case Ok(p) => Ok(MatrixProduct(p))
      case Err(e) => Err(e)
    else Err(NotImplementedError)
  }
}

=== FILE: global_merge.dfy ===
/** The dictionary of Q tiles that the diagonal process assembles from the
    merged Qs of one tile column (`__qr_split0_global_q_dict_set`, source
    lines 995-1117). Each merged Q is cut into four quadrants; a quadrant
    either lands on its own tile or multiplies, from the right, every tile
    already stored in the column it reads. Matrices are kept symbolic: a
    tile records which quadrant of which key it is, or which product. */
module GlobalMerge {
  import opened Common
  import opened MergeKeys
  import opened QrTiles

  /** `top_left`, `top_right`, `bottom_left`, `bottom_right` of a merged Q. */
  datatype Quadrant = TopLeft | TopRight | BottomLeft | BottomRight

  /** A stored tile: a quadrant of the Q filed under `key`, or the product
      `left @ right`. */
  datatype QTile = Part(key: string, quad: Quadrant) | Product(left: QTile, right: QTile)

  /** Tiles by (tile row, tile column). */
  type TileMap = map<(nat, nat), QTile>

  /** The tile rows `i < n` with a tile stored in column `c`: the keys of
      `mult_keys` that are already present (source lines 1074-1089). */
  function RowsIn(d: TileMap, c: nat, n: nat): (rows: set<nat>)
    ensures forall i :: i in rows <==> i < n && (i, c) in d
  {
    set i | 0 <= i < n && (i, c) in d
  }

  /** One of the four updates J, K, L, M (source lines 1092-1116): when
      column `src` of the saved copy `hold` has no tile, the quadrant goes to
      tile `(home, dst)`; otherwise tile `(i, dst)` becomes
      `hold[(i, src)] @ quadrant` for every row `i` of column `src`. */
  function Placed(cur: TileMap, hold: TileMap, src: nat, dst: nat, home: nat, n: nat, part: QTile): (r: TileMap)
    ensures RowsIn(hold, src, n) == {} ==> r == cur[(home, dst) := part]
    ensures RowsIn(hold, src, n) != {} ==>
              && (forall i :: i in RowsIn(hold, src, n) ==> (i, dst) in r && r[(i, dst)] == Product(hold[(i, src)], part))
              && (forall k :: k in r <==> k in cur || (k.1 == dst && k.0 in RowsIn(hold, src, n)))
              && (forall k :: k in cur && !(k.1 == dst && k.0 in RowsIn(hold, src, n)) ==> r[k] == cur[k])
  {
    var rows := RowsIn(hold, src, n);
    if rows == {} then cur[(home, dst) := part]
    else Multiplied(cur, hold, src, dst, rows, part)
  }

  /** `cur` with tile `(i, dst)` set to `hold[(i, src)] @ part` for every
      row `i` in `rows`. */
  function Multiplied(cur: TileMap, hold: TileMap, src: nat, dst: nat, rows: set<nat>, part: QTile): TileMap
    requires forall i :: i in rows ==> (i, src) in hold
  {
    cur + map i | i in rows :: (i, dst) := Product(hold[(i, src)], part)
  }

  /** Adding one row to the set is one more store. */
  lemma MultipliedOneMore(cur: TileMap, hold: TileMap, src: nat, dst: nat, rows: set<nat>, i: nat, part: QTile)
    requires forall j :: j in rows ==> (j, src) in hold
    requires (i, src) in hold && i !in rows
    ensures Multiplied(cur, hold, src, dst, rows + {i}, part) ==
              Multiplied(cur, hold, src, dst, rows, part)[(i, dst) := Product(hold[(i, src)], part)]
  {
    var a := Multiplied(cur, hold, src, dst, rows + {i}, part);
    var b := Multiplied(cur, hold, src, dst, rows, part)[(i, dst) := Product(hold[(i, src)], part)];
    assert forall k :: k in a <==> k in b;
    forall k | k in a ensures a[k] == b[k] {
    }
  }

  /** All four updates for one key, with `col1` the tile row of the upper
      rank and `col2` that of the lower one (source lines 1066-1116). */
  function Step(d: TileMap, col1: nat, col2: nat, n: nat, key: string): TileMap
  {
    var j := Placed(d, d, col1, col1, col1, n, Part(key, TopLeft));
    var k := Placed(j, d, col1, col2, col1, n, Part(key, TopRight));
    var l := Placed(k, d, col2, col1, col2, n, Part(key, BottomLeft));
    Placed(l, d, col2, col2, col2, n, Part(key, BottomRight))
  }

  /** The first merge touching two empty columns lays the four quadrants out
      as the 2x2 block matrix at rows and columns `col1`, `col2`. */
  lemma FirstMergePlacesQuadrants(d: TileMap, col1: nat, col2: nat, n: nat, key: string)
    requires RowsIn(d, col1, n) == {} && RowsIn(d, col2, n) == {}
    ensures Step(d, col1, col2, n, key) ==
              d[(col1, col1) := Part(key, TopLeft)][(col1, col2) := Part(key, TopRight)]
               [(col2, col1) := Part(key, BottomLeft)][(col2, col2) := Part(key, BottomRight)]
  {
  }

  /** When the rows stored in the two columns are disjoint, as they are for
      two groups of ranks that never merged before, every stored row is
      multiplied by the block of the merged Q it meets: rows of column
      `col1` by the upper quadrants, rows of column `col2` by the lower. */
  lemma DisjointColumnsMultiply(d: TileMap, col1: nat, col2: nat, n: nat, key: string)
    requires col1 != col2
    requires RowsIn(d, col1, n) != {} && RowsIn(d, col2, n) != {}
    requires RowsIn(d, col1, n) !! RowsIn(d, col2, n)
    ensures var r := Step(d, col1, col2, n, key);
            && (forall i :: i in RowsIn(d, col1, n) ==>
                  && (i, col1) in r && r[(i, col1)] == Product(d[(i, col1)], Part(key, TopLeft))
                  && (i, col2) in r && r[(i, col2)] == Product(d[(i, col1)], Part(key, TopRight)))
            && (forall i :: i in RowsIn(d, col2, n) ==>
                  && (i, col1) in r && r[(i, col1)] == Product(d[(i, col2)], Part(key, BottomLeft))
                  && (i, col2) in r && r[(i, col2)] == Product(d[(i, col2)], Part(key, BottomRight)))
            && (forall k :: k in d && k.1 != col1 && k.1 != col2 ==> k in r && r[k] == d[k])
  {
    var r1, r2 := RowsIn(d, col1, n), RowsIn(d, col2, n);
    var j := Placed(d, d, col1, col1, col1, n, Part(key, TopLeft));
    var k := Placed(j, d, col1, col2, col1, n, Part(key, TopRight));
    var l := Placed(k, d, col2, col1, col2, n, Part(key, BottomLeft));
    var r := Placed(l, d, col2, col2, col2, n, Part(key, BottomRight));
    forall i | i in r1
      ensures (i, col1) in r && r[(i, col1)] == Product(d[(i, col1)], Part(key, TopLeft))
      ensures (i, col2) in r && r[(i, col2)] == Product(d[(i, col1)], Part(key, TopRight))
    {
      assert i !in r2;
    }
  }

  /** The updates overwrite rather than add: a row stored in both columns
      keeps only its lower-quadrant product in column `col1`. */
  lemma SharedRowKeepsLowerProduct(d: TileMap, col1: nat, col2: nat, n: nat, key: string, i: nat)
    requires col1 != col2
    requires i in RowsIn(d, col1, n) && i in RowsIn(d, col2, n)
    ensures var r := Step(d, col1, col2, n, key);
            (i, col1) in r && r[(i, col1)] == Product(d[(i, col2)], Part(key, BottomLeft))
  {
    var l := Placed(Placed(Placed(d, d, col1, col1, col1, n, Part(key, TopLeft)), d, col1, col2, col1, n, Part(key, TopRight)),
                    d, col2, col1, col2, n, Part(key, BottomLeft));
    assert (i, col1) in l && l[(i, col1)] == Product(d[(i, col2)], Part(key, BottomLeft));
  }

  /** Python indexing of a table by an int: negative indices count from
      the end, anything else out of range raises IndexError. */
  function PyIndex(s: seq<nat>, i: int): (r: Result<nat>)
    ensures r.Ok? <==> -|s| <= i < |s|
    ensures r.Err? ==> r.error == IndexError
    ensures 0 <= i < |s| ==> r == Ok(s[i])
  {
    if 0 <= i < |s| then Ok(s[i])
    else if -|s| <= i < 0 then Ok(s[|s| + i])
    else Err(IndexError)
  }

  /** `proc_tile_start` after the shift (source lines 1022-1024): the first
      global tile row of every process. */
  function TileStarts(t: seq<nat>): (starts: seq<nat>)
    ensures |starts| == |t| && forall pr :: 0 <= pr < |t| ==> starts[pr] == SumTo(t, pr)
  {
    seq(|t|, pr requires 0 <= pr < |t| => SumTo(t, pr))
  }

  /** The tile columns `col1`, `col2` a key is placed at (source lines
      1041-1061): the ranks are read back from the key; the diagonal rank
      uses the current column, every other rank its first tile row. */
  function KeyColumns(key: string, col: nat, diag: nat, t: seq<nat>): (r: Result<(nat, nat)>)
    ensures ParseKey(key).Err? ==> r == Err(ParseKey(key).error)
  {
    match ParseKey(key)
    case Err(e) => Err(e)
    case Ok(ranks) =>
      var c1 := if ranks.0 == diag then Ok(col) else PyIndex(TileStarts(t), ranks.0);
      match c1
      case Err(e) => Err(e)
      case Ok(col1) =>
        match PyIndex(TileStarts(t), ranks.1)
        case Err(e) => Err(e)
        case Ok(col2) => Ok((col1, col2))
  }

  /** A key written by the merge loop is placed on exactly the tile rows the
      two ranks merged (the rows `__qr_split0_merge_tile_rows` picks). */
  lemma PlacementMatchesMergedRows(t: seq<nat>, col: nat, diag: nat, loop: nat, pr0: nat, pr1: nat)
    requires pr0 < |t| && pr1 < |t| && pr1 != diag
    ensures KeyColumns(Key(loop, pr0, pr1), col, diag, t) ==
              Ok((MergeTileRow(t, pr0, diag, col), MergeTileRow(t, pr1, diag, col)))
  {
    KeyRoundTrip(loop, pr0, pr1);
  }

  /** The whole dictionary for one column (source lines 1019-1117) over the
      keys in the order given. */
  function ApplyKeys(d: TileMap, keys: seq<string>, col: nat, diag: nat, t: seq<nat>, n: nat): Result<TileMap>
  {
    if keys == [] then Ok(d)
    else
      match ApplyKeys(d, keys[..|keys| - 1], col, diag, t, n)
      case Err(e) => Err(e)
      case Ok(d') =>
        var key := keys[|keys| - 1];
        match KeyColumns(key, col, diag, t)
        case Err(e) => Err(e)
        case Ok(cols) => Ok(Step(d', cols.0, cols.1, n, key))
  }

  /** `global_merge_dict`: the diagonal process's tiles of Q for the
      current column. */
  class GlobalMergeDict {
    var tiles: TileMap

    constructor ()
      ensures tiles == map[]
    {
      tiles := map[];
    }

    /** One of the J, K, L, M updates, by walking the rows of column `src`. */
    method Place(hold: TileMap, src: nat, dst: nat, home: nat, n: nat, part: QTile)
      modifies this
      ensures tiles == Placed(old(tiles), hold, src, dst, home, n, part)
    {
      var rows := RowsIn(hold, src, n);
      if rows == {} {
        tiles := tiles[(home, dst) := part];
      } else {
        var todo, done := rows, {};
        assert old(tiles) == Multiplied(old(tiles), hold, src, dst, done, part);
        while todo != {}
          invariant todo <= rows && done == rows - todo
          invariant tiles == Multiplied(old(tiles), hold, src, dst, done, part)
          decreases todo
        {
          var i :| i in todo;
          MultipliedOneMore(old(tiles), hold, src, dst, done, i, part);
          tiles := tiles[(i, dst) := Product(hold[(i, src)], part)];
          todo, done := todo - {i}, done + {i};
        }
        assert done == rows;
      }
    }

    /** All four updates for one key, each reading the copy taken before
        the first of them. */
    method MergeKey(col1: nat, col2: nat, n: nat, key: string)
      modifies this
      ensures tiles == Step(old(tiles), col1, col2, n, key)
    {
      var hold := tiles;
      Place(hold, col1, col1, col1, n, Part(key, TopLeft));
      Place(hold, col1, col2, col1, n, Part(key, TopRight));
      Place(hold, col2, col1, col2, n, Part(key, BottomLeft));
      Place(hold, col2, col2, col2, n, Part(key, BottomRight));
    }

    /** The merging loop of `__qr_split0_global_q_dict_set` (source lines
        1038-1116) over keys already in order: a bad key stops it with the
        keys before it applied. */
    method MergeSortedKeys(keys: seq<string>, col: nat, diag: nat, t: seq<nat>, n: nat) returns (r: Result<()>)
      modifies this
      ensures var res := ApplyKeys(old(tiles), keys, col, diag, t, n);
              (r.Ok? <==> res.Ok?) && (res.Ok? ==> tiles == res.value) && (res.Err? ==> r.error == res.error)
      ensures r.Err? ==>
                exists i :: 0 <= i < |keys| &&
                  KeyColumns(keys[i], col, diag, t).Err? &&
                  ApplyKeys(old(tiles), keys[..i], col, diag, t, n) == Ok(tiles)
    {
      var i := 0;
      while i < |keys|
        invariant 0 <= i <= |keys|
        invariant ApplyKeys(old(tiles), keys[..i], col, diag, t, n) == Ok(tiles)
      {
        assert keys[..i + 1][..i] == keys[..i];
        var cols := KeyColumns(keys[i], col, diag, t);
        if cols.Err? {
          ErrorPersists(old(tiles), keys, i, col, diag, t, n);
          return Err(cols.error);
        }
        MergeKey(cols.value.0, cols.value.1, n, keys[i]);
        i := i + 1;
      }
      assert keys[..i] == keys;
      return Ok(());
    }

    /** `__qr_split0_global_q_dict_set` for column `col` on the table of
        tile rows `t` with `n` tile columns in Q: the keys are sorted as
        strings and merged in that order. A column past the last tile row
        or a bad key raises, as the source does, and leaves the tiles of the
        keys before it in place. */
    method GlobalQDictSet(keys: seq<string>, col: nat, t: seq<nat>, n: nat) returns (r: Result<()>)
      modifies this
      ensures DiagProcess(t, col).Err? ==> r == Err(IndexError) && tiles == old(tiles)
      ensures DiagProcess(t, col).Ok? ==>
                var res := ApplyKeys(old(tiles), SortKeys(keys), col, DiagProcess(t, col).value, t, n);
                (r.Ok? <==> res.Ok?) && (res.Ok? ==> tiles == res.value) && (res.Err? ==> r.error == res.error)
      // a bad key stops the merge with the keys sorted before it applied
      ensures DiagProcess(t, col).Ok? && r.Err? ==>
                var sorted := SortKeys(keys);
                exists i :: 0 <= i < |sorted| &&
                  KeyColumns(sorted[i], col, DiagProcess(t, col).value, t).Err? &&
                  ApplyKeys(old(tiles), sorted[..i], col, DiagProcess(t, col).value, t, n) == Ok(tiles)
    {
      var dp := DiagProcess(t, col);
      if dp.Err? {
        return Err(IndexError);
      }
      r := MergeSortedKeys(SortKeys(keys), col, dp.value, t, n);
    }
  }

  /** An error at one key is the error of the whole fold. */
  lemma {:induction false} ErrorPersists(d: TileMap, keys: seq<string>, i: nat, col: nat, diag: nat, t: seq<nat>, n: nat)
    requires i < |keys| && ApplyKeys(d, keys[..i], col, diag, t, n).Ok?
    requires KeyColumns(keys[i], col, diag, t).Err?
    ensures ApplyKeys(d, keys, col, diag, t, n) == Err(KeyColumns(keys[i], col, diag, t).error)
    decreases |keys|
  {
    var front := keys[..|keys| - 1];
    if i < |keys| - 1 {
      assert front[..i] == keys[..i] && front[i] == keys[i];
      ErrorPersists(d, front, i, col, diag, t, n);
    } else {
      assert front == keys[..i];
    }
  }
}

=== FILE: merge_keys.dfy ===
/** The string keys under which the split=0 QR stores the Q of every merge
    (source lines 1197, 1227, 1250), how they are parsed back (lines
    1041-1045), rebuilt after a transfer (lines 1530 and 1571) and sorted
    (line 1035). Python's `str`, `str.find`, slicing, `int` and string
    ordering are modelled on `seq<char>`. */
module MergeKeys {
  import opened Common

  predicate IsDigit(c: char)
  {
    '0' <= c <= '9'
  }

  predicate AllDigits(s: string)
  {
    forall i :: 0 <= i < |s| ==> IsDigit(s[i])
  }

  function DigitChar(d: nat): (c: char)
    requires d < 10
    ensures IsDigit(c) && c as int - '0' as int == d
  {
    (d + '0' as int) as char
  }

  /** Python `str(n)` for a natural number: its decimal digits, most
      significant first, with no leading zero. */
  function NatToString(n: nat): (s: string)
    ensures |s| >= 1 && AllDigits(s)
    ensures n < 10 <==> |s| == 1
    ensures |s| == 1 || s[0] != '0'
  {
    if n < 10 then [DigitChar(n)] else NatToString(n / 10) + [DigitChar(n % 10)]
  }

  /** The value of a non-empty string of decimal digits. */
  function DigitsValue(s: string): nat
    requires AllDigits(s)
  {
    if s == [] then 0 else 10 * DigitsValue(s[..|s| - 1]) + (s[|s| - 1] as int - '0' as int)
  }

  /** Python `int(s)` on the strings the keys hold: an optional sign and
      at least one decimal digit; anything else raises ValueError. */
  function ParseInt(s: string): (r: Result<int>)
    ensures r.Ok? <==> (|s| >= 1 && AllDigits(s)) || (|s| >= 2 && (s[0] == '-' || s[0] == '+') && AllDigits(s[1..]))
    ensures r.Err? ==> r.error == ValueError
    ensures |s| >= 1 && AllDigits(s) ==> r == Ok(DigitsValue(s))
  {
    if |s| >= 1 && AllDigits(s) then Ok(DigitsValue(s))
    else if |s| >= 2 && s[0] == '-' && AllDigits(s[1..]) then Ok(0 - DigitsValue(s[1..]))
    else if |s| >= 2 && s[0] == '+' && AllDigits(s[1..]) then Ok(DigitsValue(s[1..]))
    else Err(ValueError)
  }

  /** `int(str(n)) == n`. */
  lemma {:induction false} ParseNatToString(n: nat)
    ensures ParseInt(NatToString(n)) == Ok(n)
    ensures DigitsValue(NatToString(n)) == n
  {
    var s := NatToString(n);
    if n >= 10 {
      ParseNatToString(n / 10);
      assert s[..|s| - 1] == NatToString(n / 10);
      assert s[|s| - 1] == DigitChar(n % 10);
    } else {
      assert s[..0] == [];
      assert DigitsValue(s) == 10 * DigitsValue(s[..0]) + n;
    }
  }

  /** `pat` occurs in `s` at position `j`. */
  predicate MatchAt(s: string, pat: string, j: nat)
  {
    j + |pat| <= |s| && s[j..j + |pat|] == pat
  }

  /** `str.find` from position `i`: the first index at or after `i` where
      `pat` occurs, or -1. */
  function FindFrom(s: string, pat: string, i: nat): (r: int)
    requires i <= |s|
    ensures r == -1 || (i <= r && MatchAt(s, pat, r))
    ensures r != -1 ==> forall j :: i <= j < r ==> !MatchAt(s, pat, j)
    ensures r == -1 ==> forall j :: i <= j ==> !MatchAt(s, pat, j)
    decreases |s| - i
  {
    if i + |pat| > |s| then -1
    else if s[i..i + |pat|] == pat then i
    else
      assert pat != [];
      FindFrom(s, pat, i + 1)
  }

  /** Python `s.find(pat)`. */
  function Find(s: string, pat: string): int
  {
    FindFrom(s, pat, 0)
  }

  /** Python's slice bound: negative counts from the end, then clamped to
      `[0, len]`. */
  function SliceBound(i: int, len: nat): (b: nat)
    ensures b <= len
    ensures 0 <= i <= len ==> b == i
  {
    if i < 0 then (if i + len < 0 then 0 else i + len)
    else if i > len then len
    else i
  }

  /** Python `s[i:j]`. */
  function PySlice(s: string, i: int, j: int): (r: string)
    ensures 0 <= i <= j <= |s| ==> r == s[i..j]
  {
    var lo := SliceBound(i, |s|);
    var hi := SliceBound(j, |s|);
    if lo < hi then s[lo..hi] else []
  }

  /** The key of a merge between ranks `pr0` and `pr1` in round `loop`
      (source lines 1197, 1227 and 1250). */
  function Key(loop: nat, pr0: nat, pr1: nat): string
  {
    NatToString(loop) + "p0" + NatToString(pr0) + "p1" + NatToString(pr1) + "e"
  }

  /** The two ranks read back from a key (source lines 1041-1045). */
  function ParseKey(key: string): Result<(int, int)>
  {
    var p0 := Find(key, "p0");
    var p1 := Find(key, "p1");
    var end := Find(key, "e");
    match ParseInt(PySlice(key, p0 + 2, p1))
    case Err(e) => Err(e)
    case Ok(r0) =>
      match ParseInt(PySlice(key, p1 + 2, end))
      case Err(e) => Err(e)
      case Ok(r1) => Ok((r0, r1))
  }

  /** A pattern found at `k` and nowhere before is what `find` returns. */
  lemma FindIsFirst(s: string, pat: string, k: nat)
    requires MatchAt(s, pat, k)
    requires forall j :: 0 <= j < k ==> !MatchAt(s, pat, j)
    ensures Find(s, pat) == k
  {
  }

  /** A position inside a run of digits cannot start a two-letter pattern
      that begins with a letter. */
  lemma NoMatchAtDigit(s: string, pat: string, j: nat)
    requires |pat| == 2 && !IsDigit(pat[0])
    requires j < |s| && IsDigit(s[j])
    ensures !MatchAt(s, pat, j)
  {
    if j + 2 <= |s| {
      assert s[j..j + 2][0] == s[j];
    }
  }

  /** A key spelled out from its three digit strings. */
  function Spell(d1: string, d2: string, d3: string): string
  {
    d1 + "p0" + d2 + "p1" + d3 + "e"
  }

  /** Where the parts of a spelled key sit. */
  lemma SpellLayout(d1: string, d2: string, d3: string)
    requires AllDigits(d1) && AllDigits(d2) && AllDigits(d3)
    ensures var key, a := Spell(d1, d2, d3), |d1|;
            var b := a + 2 + |d2|;
            var c := b + 2 + |d3|;
            && |key| == c + 1
            && key[a + 2..b] == d2 && key[b + 2..c] == d3
            && (forall j :: 0 <= j < a ==> IsDigit(key[j]))
            && (forall j :: a + 2 <= j < b ==> IsDigit(key[j]))
            && (forall j :: b + 2 <= j < c ==> IsDigit(key[j]))
            && key[a] == 'p' && key[a + 1] == '0' && key[b] == 'p' && key[b + 1] == '1' && key[c] == 'e'
  {
    var key, a := Spell(d1, d2, d3), |d1|;
    var b := a + 2 + |d2|;
    forall j | 0 <= j < a ensures IsDigit(key[j]) { assert key[j] == d1[j]; }
    forall j | a + 2 <= j < b ensures IsDigit(key[j]) { assert key[j] == d2[j - a - 2]; }
    forall j | b + 2 <= j < b + 2 + |d3| ensures IsDigit(key[j]) { assert key[j] == d3[j - b - 2]; }
  }

  lemma FindP0(d1: string, d2: string, d3: string)
    requires AllDigits(d1) && AllDigits(d2) && AllDigits(d3)
    ensures Find(Spell(d1, d2, d3), "p0") == |d1|
  {
    SpellLayout(d1, d2, d3);
    var key, a := Spell(d1, d2, d3), |d1|;
    forall j | 0 <= j < a ensures !MatchAt(key, "p0", j) {
      NoMatchAtDigit(key, "p0", j);
    }
    assert key[a..a + 2] == "p0";
    FindIsFirst(key, "p0", a);
  }

  lemma FindP1(d1: string, d2: string, d3: string)
    requires AllDigits(d1) && AllDigits(d2) && AllDigits(d3)
    ensures Find(Spell(d1, d2, d3), "p1") == |d1| + 2 + |d2|
  {
    SpellLayout(d1, d2, d3);
    var key, a := Spell(d1, d2, d3), |d1|;
    var b := a + 2 + |d2|;
    forall j | 0 <= j < b ensures !MatchAt(key, "p1", j) {
      if j == a {
        assert key[j..j + 2][1] == '0';
      } else {
        assert key[j..j + 2][0] == key[j];
      }
    }
    assert key[b..b + 2] == "p1";
    FindIsFirst(key, "p1", b);
  }

  lemma FindE(d1: string, d2: string, d3: string)
    requires AllDigits(d1) && AllDigits(d2) && AllDigits(d3)
    ensures Find(Spell(d1, d2, d3), "e") == |d1| + 2 + |d2| + 2 + |d3|
  {
    SpellLayout(d1, d2, d3);
    var key := Spell(d1, d2, d3);
    var c := |d1| + 2 + |d2| + 2 + |d3|;
    forall j | 0 <= j < c ensures !MatchAt(key, "e", j) {
      assert key[j..j + 1][0] == key[j];
    }
    assert key[c..c + 1] == "e";
    FindIsFirst(key, "e", c);
  }

  /** Once the markers are located, the key parses to the values of the
      digit runs between them. */
  lemma ParseLocated(key: string, a: int, b: int, c: int, d2: string, d3: string)
    requires Find(key, "p0") == a && Find(key, "p1") == b && Find(key, "e") == c
    requires PySlice(key, a + 2, b) == d2 && PySlice(key, b + 2, c) == d3
    requires AllDigits(d2) && AllDigits(d3) && |d2| >= 1 && |d3| >= 1
    ensures ParseKey(key) == Ok((DigitsValue(d2) as int, DigitsValue(d3) as int))
  {
  }

  /** A spelled key parses back to the values of its two rank strings. */
  lemma SpellRoundTrip(d1: string, d2: string, d3: string)
    requires AllDigits(d1) && AllDigits(d2) && AllDigits(d3) && |d2| >= 1 && |d3| >= 1
    ensures ParseKey(Spell(d1, d2, d3)) == Ok((DigitsValue(d2) as int, DigitsValue(d3) as int))
  {
    var key := Spell(d1, d2, d3);
    var a := |d1|;
    var b := a + 2 + |d2|;
    var c := b + 2 + |d3|;
    SpellLayout(d1, d2, d3);
    FindP0(d1, d2, d3);
    FindP1(d1, d2, d3);
    FindE(d1, d2, d3);
    assert PySlice(key, a + 2, b) == d2;
    assert PySlice(key, b + 2, c) == d3;
    ParseLocated(key, a, b, c, d2, d3);
  }

  /** Every key the merge loop writes parses back to the two ranks it was
      built from. */
  lemma KeyRoundTrip(loop: nat, pr0: nat, pr1: nat)
    ensures ParseKey(Key(loop, pr0, pr1)) == Ok((pr0 as int, pr1 as int))
  {
    var d1, d2, d3 := NatToString(loop), NatToString(pr0), NatToString(pr1);
    assert Key(loop, pr0, pr1) == Spell(d1, d2, d3);
    SpellRoundTrip(d1, d2, d3);
    ParseNatToString(pr0);
    ParseNatToString(pr1);
  }

  /** The key the diagonal process rebuilds for a Q it received: the first
      character of the original key, then `"p0"`, the ranks and `"e"`
      (source lines 1530 and 1571). */
  function RebuiltKey(key: string, pr0: nat, pr1: nat): string
    requires |key| > 0
  {
    [key[0]] + "p0" + NatToString(pr0) + "p1" + NatToString(pr1) + "e"
  }

  /** A rebuilt key, whatever its first digit, parses back to the two ranks
      it was rebuilt with. */
  lemma RebuiltKeyRoundTrip(key: string, pr0: nat, pr1: nat)
    requires |key| > 0 && IsDigit(key[0])
    ensures ParseKey(RebuiltKey(key, pr0, pr1)) == Ok((pr0 as int, pr1 as int))
  {
    var d1, d2, d3 := [key[0]], NatToString(pr0), NatToString(pr1);
    assert RebuiltKey(key, pr0, pr1) == Spell(d1, d2, d3);
    SpellRoundTrip(d1, d2, d3);
    ParseNatToString(pr0);
    ParseNatToString(pr1);
  }

  /** Only the first character of the round number survives the transfer:
      the rebuilt key equals the original exactly when the round number has
      one digit. */
  lemma {:induction false} RebuiltKeyExactBelowTen(loop: nat, pr0: nat, pr1: nat)
    ensures RebuiltKey(Key(loop, pr0, pr1), pr0, pr1) == Key(loop, pr0, pr1) <==> loop < 10
  {
    var key := Key(loop, pr0, pr1);
    var tail := "p0" + NatToString(pr0) + "p1" + NatToString(pr1) + "e";
    assert key == NatToString(loop) + tail;
    assert key[0] == NatToString(loop)[0];
    if loop < 10 {
      assert [key[0]] == NatToString(loop);
    } else {
      assert |RebuiltKey(key, pr0, pr1)| == 1 + |tail| < |key|;
    }
  }

  /** Python's string order: code point by code point, a proper prefix
      first. */
  predicate LexLe(a: string, b: string)
  {
    if |a| == 0 then true
    else if |b| == 0 then false
    else a[0] < b[0] || (a[0] == b[0] && LexLe(a[1..], b[1..]))
  }

  lemma {:induction false} LexLeTotal(a: string, b: string)
    ensures LexLe(a, b) || LexLe(b, a)
  {
    if |a| > 0 && |b| > 0 && a[0] == b[0] {
      LexLeTotal(a[1..], b[1..]);
    }
  }

  /** With one-digit round numbers the sorted keys come in round order. */
  lemma RoundOrderBelowTen(l1: nat, l2: nat, a: nat, b: nat, c: nat, d: nat)
    requires l1 < l2 < 10
    ensures LexLe(Key(l1, a, b), Key(l2, c, d)) && !LexLe(Key(l2, c, d), Key(l1, a, b))
  {
    assert Key(l1, a, b)[0] == DigitChar(l1);
    assert Key(l2, c, d)[0] == DigitChar(l2);
  }

  /** From round 10 on the order breaks: a round-10 key sorts before a
      round-2 key. */
  lemma RoundTenSortsBeforeRoundTwo(a: nat, b: nat, c: nat, d: nat)
    ensures LexLe(Key(10, a, b), Key(2, c, d)) && !LexLe(Key(2, c, d), Key(10, a, b))
  {
    assert NatToString(10) == "10";
    assert Key(10, a, b)[0] == '1';
    assert Key(2, c, d)[0] == '2';
  }

  predicate Sorted(s: seq<string>)
  {
    forall i :: 0 <= i < |s| - 1 ==> LexLe(s[i], s[i + 1])
  }

  function Insert(x: string, s: seq<string>): (r: seq<string>)
    requires Sorted(s)
    ensures Sorted(r) && multiset(r) == multiset(s) + multiset{x}
    ensures |r| > 0 && (r[0] == x || (|s| > 0 && r[0] == s[0]))
  {
    if s == [] then [x]
    else if LexLe(x, s[0]) then [x] + s
    else
      LexLeTotal(x, s[0]);
      var rest := Insert(x, s[1..]);
      assert s == [s[0]] + s[1..];
      [s[0]] + rest
  }

  /** `merge_list.sort()` (source line 1035): the keys in Python string
      order. */
  function SortKeys(keys: seq<string>): (r: seq<string>)
    ensures Sorted(r) && multiset(r) == multiset(keys)
  {
    if keys == [] then []
    else
      assert keys == [keys[0]] + keys[1..];
      Insert(keys[0], SortKeys(keys[1..]))
  }
}

=== FILE: merge_schedule.dfy ===
/** The binary merge of the global R calculation in the split=0 QR
    (`__qr_split0_r_calc`, source lines 1164-1277), seen from all processes
    at once: from the ascending list of ranks that still hold rows of the
    current column, which pairs of ranks merge their tile rows, in which
    round, and under which key the resulting Q is stored. The local QR, the
    tile transfers and the per-rank early exit at lines 1181-1182 are not part of
    this model. */
module MergeSchedule {
  import opened Common
  import opened MergeKeys

  /** Where a merge comes from: the pairing of the two halves of the list,
      the merge of two saved remainders, or the last merge of a remainder
      into the first rank. */
  datatype MergeKind = Pairwise | Remainders | Final

  /** One call of `__qr_split0_merge_tile_rows`: `pr0` keeps the upper tile
      rows, `pr1` the lower ones. The key its Q is stored under follows from
      these (`StoredKey`). */
  datatype Merge = Merge(kind: MergeKind, loop: nat, pr0: nat, pr1: nat)

  /** Number of merges in which rank `r` is the lower partner. */
  function CountPr1(merges: seq<Merge>, r: nat): nat
  {
    if merges == [] then 0
    else CountPr1(merges[..|merges| - 1], r) + (if merges[|merges| - 1].pr1 == r then 1 else 0)
  }

  lemma CountPr1Append(merges: seq<Merge>, m: Merge, r: nat)
    ensures CountPr1(merges + [m], r) == CountPr1(merges, r) + (if m.pr1 == r then 1 else 0)
  {
    assert (merges + [m])[..|merges|] == merges;
  }

  /** Python `s[:-k]`: everything but the last `k` entries, and nothing at
      all when `k` is 0. */
  function DropTail(s: seq<nat>, k: nat): (r: seq<nat>)
    ensures 0 < k <= |s| ==> r == s[..|s| - k]
  {
    if k == 0 || k >= |s| then [] else s[..|s| - k]
  }

  /** The key a merge is stored under: the remainder merge names its ranks
      the other way round (source lines 1220-1227). */
  function MergeKey(kind: MergeKind, loop: nat, pr0: nat, pr1: nat): string
  {
    if kind == Remainders then Key(loop, pr1, pr0) else Key(loop, pr0, pr1)
  }

  /** The key of the merge's Q in `q_dict` (source lines 1197 and 1220-1227). */
  function StoredKey(m: Merge): string
  {
    MergeKey(m.kind, m.loop, m.pr0, m.pr1)
  }

  /** Reading a stored key back gives the two ranks of the merge, in merge
      order except for the remainder merge, whose key names the lower
      partner first. */
  lemma RecordedKeyNamesRanks(m: Merge)
    ensures m.kind == Remainders ==> ParseKey(StoredKey(m)) == Ok((m.pr1 as int, m.pr0 as int))
    ensures m.kind != Remainders ==> ParseKey(StoredKey(m)) == Ok((m.pr0 as int, m.pr1 as int))
  {
    if m.kind == Remainders {
      KeyRoundTrip(m.loop, m.pr1, m.pr0);
    } else {
      KeyRoundTrip(m.loop, m.pr0, m.pr1);
    }
  }

  /** The copy of a Q that the diagonal process receives is filed under a
      key rebuilt from the merge's own ranks (source lines 1524-1530 and
      1571), so there every key, the remainder merge's included, names the
      upper rank first. */
  lemma DiagonalCopyNamesMergeOrder(m: Merge)
    ensures var key := StoredKey(m);
            |key| > 0 && ParseKey(RebuiltKey(key, m.pr0, m.pr1)) == Ok((m.pr0 as int, m.pr1 as int))
  {
    var key := StoredKey(m);
    assert key[0] == NatToString(m.loop)[0];
    RebuiltKeyRoundTrip(key, m.pr0, m.pr1);
  }

  /** Every merge pairs two of the ranks, the upper one first. */
  predicate WellFormed(merges: seq<Merge>, ranks: seq<nat>)
  {
    forall m :: m in merges ==> m.pr0 in ranks && m.pr1 in ranks && m.pr0 < m.pr1
  }

  /** Rank position `j` has not yet been merged into another rank: it is
      still in the list (outside the window `lo..hi` already paired off) or
      it is a saved remainder. */
  predicate Pending(j: nat, listLen: nat, lo: nat, hi: nat, p1: Option<nat>, p2: Option<nat>)
  {
    (j < listLen && !(lo <= j < hi)) || p1 == Some(j) || p2 == Some(j)
  }

  /** Pending ranks were never the lower partner; all others exactly once. */
  predicate CountsMatch(merges: seq<Merge>, ranks: seq<nat>, listLen: nat, lo: nat, hi: nat,
                        p1: Option<nat>, p2: Option<nat>)
  {
    forall j :: 0 <= j < |ranks| ==>
      CountPr1(merges, ranks[j]) == if Pending(j, listLen, lo, hi, p1, p2) then 0 else 1
  }

  /** Appending a merge whose lower partner is rank position `k` moves `k`
      from pending to merged and leaves every other count alone. */
  lemma MergeOne(merges: seq<Merge>, m: Merge, ranks: seq<nat>, k: nat,
                 l: nat, lo: nat, hi: nat, p1: Option<nat>, p2: Option<nat>,
                 l': nat, lo': nat, hi': nat, p1': Option<nat>, p2': Option<nat>)
    requires Ascending(ranks) && k < |ranks| && m.pr1 == ranks[k]
    requires CountsMatch(merges, ranks, l, lo, hi, p1, p2)
    requires Pending(k, l, lo, hi, p1, p2) && !Pending(k, l', lo', hi', p1', p2')
    requires forall j :: 0 <= j < |ranks| && j != k ==>
               (Pending(j, l, lo, hi, p1, p2) <==> Pending(j, l', lo', hi', p1', p2'))
    ensures CountsMatch(merges + [m], ranks, l', lo', hi', p1', p2')
  {
    forall j | 0 <= j < |ranks|
      ensures CountPr1(merges + [m], ranks[j]) == if Pending(j, l', lo', hi', p1', p2') then 0 else 1
    {
      CountPr1Append(merges, m, ranks[j]);
    }
  }

  lemma WellFormedAppend(merges: seq<Merge>, m: Merge, ranks: seq<nat>)
    requires WellFormed(merges, ranks)
    requires m.pr0 in ranks && m.pr1 in ranks && m.pr0 < m.pr1
    ensures WellFormed(merges + [m], ranks)
  {
  }

  /** Renaming where the pending ranks are kept changes no count. */
  lemma Retag(merges: seq<Merge>, ranks: seq<nat>,
              l: nat, lo: nat, hi: nat, p1: Option<nat>, p2: Option<nat>,
              l': nat, lo': nat, hi': nat, p1': Option<nat>, p2': Option<nat>)
    requires CountsMatch(merges, ranks, l, lo, hi, p1, p2)
    requires forall j :: 0 <= j < |ranks| ==>
               (Pending(j, l, lo, hi, p1, p2) <==> Pending(j, l', lo', hi', p1', p2'))
    ensures CountsMatch(merges, ranks, l', lo', hi', p1', p2')
  {
  }

  /** Merge `m` is the zip's pairing of rank `i` with rank `half + i` in
      round `loop`. */
  predicate ZipPair(ranks: seq<nat>, half: nat, loop: nat, i: nat, m: Merge)
  {
    half + i < |ranks| &&
    m.kind == Pairwise && m.loop == loop && m.pr0 == ranks[i] && m.pr1 == ranks[half + i]
  }

  /** The merges after `i` pairs of the zip: `merges0` from earlier rounds,
      then the first `i` ranks of the upper half merged, in order, with the
      first `i` of the lower half. */
  predicate Zipped(ranks: seq<nat>, half: nat, loop: nat, merges0: seq<Merge>, merges: seq<Merge>, i: nat)
  {
    if i == 0 then merges == merges0
    else
      && |merges| > 0
      && Zipped(ranks, half, loop, merges0, merges[..|merges| - 1], i - 1)
      && ZipPair(ranks, half, loop, i - 1, merges[|merges| - 1])
  }

  lemma ZipOne(ranks: seq<nat>, half: nat, loop: nat, merges0: seq<Merge>, merges: seq<Merge>, i: nat, m: Merge)
    requires Zipped(ranks, half, loop, merges0, merges, i) && ZipPair(ranks, half, loop, i, m)
    ensures Zipped(ranks, half, loop, merges0, merges + [m], i + 1)
  {
    assert (merges + [m])[..|merges|] == merges;
  }

  /** Reading the zip back: `merges0` is kept as the prefix, and merge
      `|merges0| + k` pairs rank `k` with rank `half + k`. */
  lemma {:induction false} ZippedAt(ranks: seq<nat>, half: nat, loop: nat, merges0: seq<Merge>, merges: seq<Merge>, i: nat)
    requires Zipped(ranks, half, loop, merges0, merges, i)
    ensures |merges| == |merges0| + i && merges[..|merges0|] == merges0
    ensures forall j :: |merges0| <= j < |merges| ==> ZipPair(ranks, half, loop, j - |merges0|, merges[j])
    decreases i
  {
    if i > 0 {
      var front := merges[..|merges| - 1];
      ZippedAt(ranks, half, loop, merges0, front, i - 1);
      assert merges[..|merges0|] == front[..|merges0|];
      forall j | |merges0| <= j < |front|
        ensures merges[j] == front[j]
      {
      }
    }
  }

  /** One step of the zip: appending the pairing of rank `i` with rank
      `half + i` keeps the counts and the rank order. */
  lemma PairStep(ranks: seq<nat>, listLen: nat, half: nat, loop: nat, merges: seq<Merge>,
                 i: nat, p1: Option<nat>, p2: Option<nat>)
    requires Ascending(ranks) && listLen == 2 * half <= |ranks| && i < half
    requires (p1.Some? ==> p1.value >= listLen) && (p2.Some? ==> p2.value >= listLen)
    requires |merges| > 0
    requires var front := merges[..|merges| - 1];
             CountsMatch(front, ranks, listLen, half, half + i, p1, p2) && WellFormed(front, ranks)
    requires ZipPair(ranks, half, loop, i, merges[|merges| - 1])
    ensures CountsMatch(merges, ranks, listLen, half, half + i + 1, p1, p2)
    ensures WellFormed(merges, ranks)
  {
    var front, m := merges[..|merges| - 1], merges[|merges| - 1];
    assert Pending(i, listLen, half, half + i, p1, p2);
    MergeOne(front, m, ranks, half + i, listLen, half, half + i, p1, p2, listLen, half, half + i + 1, p1, p2);
    WellFormedAppend(front, m, ranks);
    assert merges == front + [m];
  }

  /** The zip keeps the counts and the rank order of the merges before
      it. */
  lemma {:induction false} ZipFacts(ranks: seq<nat>, listLen: nat, half: nat, loop: nat, merges0: seq<Merge>,
                                    merges: seq<Merge>, i: nat, p1: Option<nat>, p2: Option<nat>)
    requires Ascending(ranks) && listLen == 2 * half <= |ranks| && i <= half
    requires (p1.Some? ==> p1.value >= listLen) && (p2.Some? ==> p2.value >= listLen)
    requires CountsMatch(merges0, ranks, listLen, half, half, p1, p2) && WellFormed(merges0, ranks)
    requires Zipped(ranks, half, loop, merges0, merges, i)
    ensures CountsMatch(merges, ranks, listLen, half, half + i, p1, p2) && WellFormed(merges, ranks)
    decreases i
  {
    if i > 0 {
      ZipFacts(ranks, listLen, half, loop, merges0, merges[..|merges| - 1], i - 1, p1, p2);
      PairStep(ranks, listLen, half, loop, merges, i - 1, p1, p2);
    }
  }

  /** The `zip` of the two halves of the list (source lines 1184-1212): the
      i-th rank of the upper half merges with the i-th of the lower half. */
  method PairHalves(ranks: seq<nat>, lsr: seq<nat>, half: nat, loop: nat, merges0: seq<Merge>,
                    ghost p1: Option<nat>, ghost p2: Option<nat>)
    returns (merges: seq<Merge>)
    requires Ascending(ranks) && 1 <= half && |lsr| == 2 * half <= |ranks| && lsr == ranks[..|lsr|]
    requires p1.Some? ==> p1.value >= |lsr|
    requires p2.Some? ==> p2.value >= |lsr|
    requires CountsMatch(merges0, ranks, |lsr|, 0, 0, p1, p2) && WellFormed(merges0, ranks)
    ensures CountsMatch(merges, ranks, half, 0, 0, p1, p2) && WellFormed(merges, ranks)
    // exactly `half` merges are appended, the i-th pairing ranks i and half + i
    ensures |merges| == |merges0| + half && merges[..|merges0|] == merges0
    ensures forall j :: |merges0| <= j < |merges| ==> ZipPair(ranks, half, loop, j - |merges0|, merges[j])
  {
    var upper, lower := lsr[..half], lsr[half..];
    merges := merges0;
    Retag(merges, ranks, |lsr|, 0, 0, p1, p2, |lsr|, half, half, p1, p2);
    var i := 0;
    while i < Min(|upper|, |lower|)
      invariant 0 <= i <= half
      invariant Zipped(ranks, half, loop, merges0, merges, i)
    {
      var pr0, pr1 := upper[i], lower[i];
      assert pr0 == ranks[i] && pr1 == ranks[half + i];
      var m := Merge(Pairwise, loop, pr0, pr1);
      ZipOne(ranks, half, loop, merges0, merges, i, m);
      merges := merges + [m];
      i := i + 1;
    }
    ZipFacts(ranks, |lsr|, half, loop, merges0, merges, half, p1, p2);
    Retag(merges, ranks, |lsr|, half, |lsr|, p1, p2, half, 0, 0, p1, p2);
    ZippedAt(ranks, half, loop, merges0, merges, half);
  }

  /** What holds between two rounds of the merge loop: the list is a prefix
      of the ranks, at most one remainder is saved and it lies beyond the
      list, and exactly the ranks neither in the list nor saved have been
      merged away. */
  ghost predicate BetweenRounds(ranks: seq<nat>, lsr: seq<nat>, rem1: Option<nat>, p1: Option<nat>,
                                merges: seq<Merge>)
  {
    && 1 <= |lsr| <= |ranks| && lsr == ranks[..|lsr|]
    && (rem1.Some? <==> p1.Some?)
    && (rem1.Some? ==> |lsr| <= p1.value < |ranks| && rem1.value == ranks[p1.value])
    && (|lsr| == 1 ==> rem1 == None)
    && CountsMatch(merges, ranks, |lsr|, 0, 0, p1, None) && WellFormed(merges, ranks)
  }

  /** Inside a round: up to two saved remainders, both beyond the list, the
      later-saved one (`rem2`) at the lower position. */
  ghost predicate MidRound(ranks: seq<nat>, lsr: seq<nat>, rem1: Option<nat>, p1: Option<nat>,
                           rem2: Option<nat>, p2: Option<nat>, merges: seq<Merge>)
  {
    && 1 <= |lsr| <= |ranks| && lsr == ranks[..|lsr|]
    && (rem1.Some? <==> p1.Some?) && (rem2.Some? <==> p2.Some?) && (rem2.Some? ==> rem1.Some?)
    && (rem1.Some? ==> |lsr| <= p1.value < |ranks| && rem1.value == ranks[p1.value])
    && (rem2.Some? ==> |lsr| <= p2.value < p1.value && rem2.value == ranks[p2.value])
    && CountsMatch(merges, ranks, |lsr|, 0, 0, p1, p2) && WellFormed(merges, ranks)
  }

  /** An odd count sets the last rank of the list aside (source lines
      1173-1180); at the top of the loop the second slot is always free. */
  method SetAside(ranks: seq<nat>, lsr: seq<nat>, rem1: Option<nat>, ghost p1: Option<nat>, merges: seq<Merge>)
    returns (lsr': seq<nat>, rem1': Option<nat>, rem2': Option<nat>, ghost p1': Option<nat>, ghost p2': Option<nat>)
    requires BetweenRounds(ranks, lsr, rem1, p1, merges) && |lsr| >= 2
    ensures MidRound(ranks, lsr', rem1', p1', rem2', p2', merges)
    ensures |lsr'| == 2 * (|lsr| / 2)
    ensures |lsr'| + (if rem1'.Some? then 1 else 0) + (if rem2'.Some? then 1 else 0)
            == |lsr| + (if rem1.Some? then 1 else 0)
  {
    lsr', rem1', rem2', p1', p2' := lsr, rem1, None, p1, None;
    if |lsr| % 2 == 1 {
      if rem1' == None {
        Retag(merges, ranks, |lsr'|, 0, 0, p1', p2', |lsr'| - 1, 0, 0, Some(|lsr'| - 1), p2');
        rem1', p1' := Some(lsr'[|lsr'| - 1]), Some(|lsr'| - 1);
        lsr' := lsr'[..|lsr'| - 1];
      } else if rem2' == None {
        Retag(merges, ranks, |lsr'|, 0, 0, p1', p2', |lsr'| - 1, 0, 0, p1', Some(|lsr'| - 1));
        rem2', p2' := Some(lsr'[|lsr'| - 1]), Some(|lsr'| - 1);
        lsr' := lsr'[..|lsr'| - 1];
      }
    }
  }

  /** The end of a round (source lines 1214-1277): two saved remainders
      merge, the later-saved one on top, and the one left takes the first
      slot; the round counter moves on; when one rank is left in the list
      the saved remainder merges into the first rank. */
  method CloseRound(ranks: seq<nat>, lsr: seq<nat>, rem1: Option<nat>, ghost p1: Option<nat>,
                    rem2: Option<nat>, ghost p2: Option<nat>, loop: nat, offset: nat, merges: seq<Merge>)
    returns (rem1': Option<nat>, rem2': Option<nat>, ghost p1': Option<nat>, loop': nat, merges': seq<Merge>)
    requires Ascending(ranks) && MidRound(ranks, lsr, rem1, p1, rem2, p2, merges) && offset == ranks[0]
    ensures BetweenRounds(ranks, lsr, rem1', p1', merges') && rem2' == None && loop' == loop + 1
    ensures (if rem1'.Some? then 1 else 0) <= (if rem1.Some? then 1 else 0)
    // two remainders merge in this round, the later-saved one on top; a
    // remainder left beside a single rank merges into `offset` in the next
    ensures rem2.Some? ==>
              |merges'| > |merges| && merges'[..|merges| + 1] == merges + [Merge(Remainders, loop, rem2.value, rem1.value)]
    ensures var left := if rem2.Some? then rem2 else rem1;
            var closing := left.Some? && |lsr| == 1;
            && |merges'| == |merges| + (if rem2.Some? then 1 else 0) + (if closing then 1 else 0)
            && merges'[..|merges|] == merges
            && (closing ==> merges'[|merges'| - 1] == Merge(Final, loop + 1, offset, left.value))
            && rem1' == (if closing then None else left)
  {
    rem1', rem2', p1', merges' := rem1, rem2, p1, merges;
    ghost var p2' := p2;
    if rem1'.Some? && rem2'.Some? {
      var m := Merge(Remainders, loop, rem2'.value, rem1'.value);
      MergeOne(merges', m, ranks, p1'.value, |lsr|, 0, 0, p1', p2', |lsr|, 0, 0, p2', None);
      WellFormedAppend(merges', m, ranks);
      merges' := merges' + [m];
      rem1', rem2', p1', p2' := rem2', None, p2', None;
    }
    loop' := loop + 1;
    if rem1'.Some? && rem2' == None && |lsr| == 1 {
      var m := Merge(Final, loop', offset, rem1'.value);
      MergeOne(merges', m, ranks, p1'.value, |lsr|, 0, 0, p1', p2', |lsr|, 0, 0, None, None);
      WellFormedAppend(merges', m, ranks);
      merges' := merges' + [m];
      rem1', p1' := None, None;
    }
  }

  /** One round of the merge loop (source lines 1172-1277), from the top of
      the loop, where no second remainder is saved, to the next. */
  method Round(ranks: seq<nat>, lsr: seq<nat>, rem1: Option<nat>, ghost p1: Option<nat>,
               loop: nat, offset: nat, merges: seq<Merge>)
    returns (lsr': seq<nat>, rem1': Option<nat>, rem2': Option<nat>, ghost p1': Option<nat>,
             loop': nat, merges': seq<Merge>)
    requires Ascending(ranks) && BetweenRounds(ranks, lsr, rem1, p1, merges) && |lsr| >= 2
    requires offset == ranks[0]
    ensures BetweenRounds(ranks, lsr', rem1', p1', merges') && rem2' == None && loop' == loop + 1
    ensures |lsr'| + (if rem1'.Some? then 1 else 0) < |lsr| + (if rem1.Some? then 1 else 0)
  {
    // the halves are cut with the count taken before a remainder was set aside
    var half := |lsr| / 2;
    var rem2: Option<nat>;
    ghost var p2: Option<nat>;
    lsr', rem1', rem2, p1', p2 := SetAside(ranks, lsr, rem1, p1, merges);
    merges' := PairHalves(ranks, lsr', half, loop, merges, p1', p2);
    lsr' := DropTail(lsr', half);
    assert lsr' == ranks[..half];
    rem1', rem2', p1', loop', merges' := CloseRound(ranks, lsr', rem1', p1', rem2, p2, loop, offset, merges');
  }

  /** The merge loop. Every merge pairs a rank with a later one; every rank
      but the first is the lower partner of exactly one merge and the first
      never is; the loop ends with only the first rank left and no saved
      remainder. */
  method RCalcSchedule(ranks: seq<nat>) returns (merges: seq<Merge>, remaining: seq<nat>, rem1: Option<nat>, rem2: Option<nat>)
    requires |ranks| >= 1 && Ascending(ranks)
    ensures WellFormed(merges, ranks)
    ensures forall i :: 1 <= i < |ranks| ==> CountPr1(merges, ranks[i]) == 1
    ensures CountPr1(merges, ranks[0]) == 0
    ensures remaining == [ranks[0]] && rem1 == None && rem2 == None
  {
    rem1, rem2 := None, None;
    var offset := ranks[0];
    remaining := ranks;
    var completed := !(|remaining| > 1);
    var loop: nat := 0;
    ghost var p1: Option<nat> := None;
    merges := [];
    while !completed
      invariant BetweenRounds(ranks, remaining, rem1, p1, merges) && rem2 == None
      invariant completed <==> |remaining| == 1 && rem1 == None
      decreases |remaining| + (if rem1.Some? then 1 else 0)
    {
      remaining, rem1, rem2, p1, loop, merges := Round(ranks, remaining, rem1, p1, loop, offset, merges);
      completed := |remaining| == 1 && rem1 == None && rem2 == None;
    }
    assert ranks[..1] == [ranks[0]];
  }
}

=== FILE: qr_tiles.dfy ===
/** Tile bookkeeping of the split=0 and split=1 QR: which processes still
    work on a tile column, which of them holds the diagonal tile, where a
    process's tile rows start, and how the tiles of two merging processes
    are squared up. `tile_rows_per_process` (or `tile_columns_per_process`)
    is the table `t`, one entry per process. */
module QrTiles {
  import opened Common

  /** The processes `k..|t|-1` whose cumulative tile count exceeds `col`. */
  function NotCompletedFrom(t: seq<nat>, col: nat, k: nat): (r: seq<nat>)
    requires k <= |t|
    ensures forall pr: nat :: pr in r <==> k <= pr < |t| && SumTo(t, pr + 1) > col
    ensures forall i :: 0 <= i < |r| ==> k <= r[i] < |t|
    ensures Ascending(r)
    decreases |t| - k
  {
    if k == |t| then []
    else
      var rest := NotCompletedFrom(t, col, k + 1);
      if SumTo(t, k + 1) > col then [k] + rest else rest
  }

  /** `torch.nonzero(col < cumsum(t))` (source lines 945-958, 1019-1021 and
      1693-1696): the processes that still hold tile rows at or below
      column `col`, in rank order. */
  function NotCompleted(t: seq<nat>, col: nat): (r: seq<nat>)
    ensures forall pr: nat :: pr in r <==> pr < |t| && SumTo(t, pr + 1) > col
    ensures forall i :: 0 <= i < |r| ==> r[i] < |t|
    ensures Ascending(r)
  {
    NotCompletedFrom(t, col, 0)
  }

  /** The diagonal process, `not_completed[0]`; indexing the empty tensor
      raises IndexError. */
  function DiagProcess(t: seq<nat>, col: nat): (r: Result<nat>)
    ensures r.Err? <==> SumTo(t, |t|) <= col || |t| == 0
    ensures r.Err? ==> r.error == IndexError
    ensures r.Ok? ==> r.value < |t| && SumTo(t, r.value) <= col < SumTo(t, r.value + 1)
  {
    FirstNotCompleted(t, col);
    var nc := NotCompleted(t, col);
    if nc == [] then Err(IndexError) else Ok(nc[0])
  }

  /** The list is empty exactly when all tile rows lie above `col`; its
      first process starts at or above `col`. */
  lemma FirstNotCompleted(t: seq<nat>, col: nat)
    ensures var nc := NotCompleted(t, col);
            && (nc == [] <==> SumTo(t, |t|) <= col || |t| == 0)
            && (nc != [] ==> SumTo(t, nc[0]) <= col < SumTo(t, nc[0] + 1))
  {
    var nc := NotCompleted(t, col);
    if |t| > 0 && SumTo(t, |t|) > col {
      assert |t| - 1 in nc;
    }
    if nc != [] {
      var d := nc[0];
      Member(nc, 0);
      SumToMono(t, d + 1, |t|);
      if d > 0 {
        assert d - 1 !in nc;
      }
    }
  }

  /** The range `lo, lo + 1, ..., hi - 1`. */
  function Range(lo: nat, hi: nat): (r: seq<nat>)
    requires lo <= hi
    decreases hi - lo
    ensures |r| == hi - lo && forall i :: 0 <= i < |r| ==> r[i] == lo + i
    ensures forall x :: x in r <==> lo <= x < hi
    ensures Ascending(r)
  {
    if lo == hi then [] else [lo] + Range(lo + 1, hi)
  }

  /** The running sums never fall, so the processes still at work are all
      ranks from the diagonal process on: the list handed to the merge loop
      is a non-empty run of consecutive ranks that starts with the diagonal
      process. */
  lemma NotCompletedIsSuffix(t: seq<nat>, col: nat)
    requires DiagProcess(t, col).Ok?
    ensures NotCompleted(t, col) == Range(DiagProcess(t, col).value, |t|)
  {
    var d := DiagProcess(t, col).value;
    AtWorkFrom(t, col, d);
    AscendingEqual(NotCompleted(t, col), Range(d, |t|));
  }

  /** The processes at work are exactly the ranks from the one whose tile
      rows contain `col`. */
  lemma AtWorkFrom(t: seq<nat>, col: nat, d: nat)
    requires d < |t| && SumTo(t, d) <= col < SumTo(t, d + 1)
    ensures forall pr: nat :: pr in NotCompleted(t, col) <==> d <= pr < |t|
  {
    forall pr: nat | d <= pr < |t| ensures pr in NotCompleted(t, col) {
      SumToMono(t, d + 1, pr + 1);
    }
    forall pr: nat | pr < d ensures pr !in NotCompleted(t, col) {
      SumToMono(t, pr + 1, d);
    }
  }

  /** Two ascending sequences with the same members are equal. */
  lemma {:induction false} AscendingEqual(a: seq<nat>, b: seq<nat>)
    requires Ascending(a) && Ascending(b)
    requires forall x :: x in a <==> x in b
    ensures a == b
  {
    if a != [] && b != [] {
      assert a[0] == b[0] by {
        assert a[0] in b && b[0] in a;
      }
      forall x ensures x in a[1..] <==> x in b[1..] {
        if x in a[1..] {
          assert x in b && x != b[0];
        }
        if x in b[1..] {
          assert x in a && x != a[0];
        }
      }
      AscendingEqual(a[1..], b[1..]);
      assert a == [a[0]] + a[1..] && b == [b[0]] + b[1..];
    } else if a != [] {
      Member(a, 0);
      assert false;
    } else if b != [] {
      Member(b, 0);
      assert false;
    }
  }

  lemma Member(s: seq<nat>, i: nat)
    requires i < |s|
    ensures s[i] in s
  {
  }

  /** The R calculation loop seen from one process (source lines 952-966):
      it walks the tile columns in order and leaves the loop at the first
      column where it is no longer at work, or at once when it is not an
      active process or holds no entry of the trimmed table `t` (a process
      past the last one with rows). It returns the columns it took part in, each with its
      diagonal process. */
  method RCalcColumns(t: seq<nat>, active: seq<nat>, rank: nat, tileColumns: nat)
    returns (cols: seq<(nat, nat)>)
    ensures rank !in active || rank >= |t| ==> cols == []
    ensures rank in active && rank < |t| ==>
              |cols| == Min(tileColumns, SumTo(t, rank + 1)) &&
              forall c :: 0 <= c < |cols| ==>
                cols[c].0 == c && DiagProcess(t, c) == Ok(cols[c].1) && cols[c].1 <= rank
  {
    cols := [];
    var col := 0;
    while col < tileColumns
      invariant 0 <= col <= tileColumns && |cols| == col
      invariant col > 0 ==> rank in active && rank < |t| && col <= SumTo(t, rank + 1)
      invariant forall c :: 0 <= c < col ==>
                  cols[c].0 == c && DiagProcess(t, c) == Ok(cols[c].1) && cols[c].1 <= rank
    {
      var nc := NotCompleted(t, col);
      if rank !in nc || rank !in active {
        break;
      }
      SumToMono(t, rank + 1, |t|);
      var diag := nc[0];
      assert DiagProcess(t, col) == Ok(diag);
      var i :| 0 <= i < |nc| && nc[i] == rank;
      assert diag <= rank;
      cols := cols + [(col, diag)];
      col := col + 1;
    }
  }

  /** The first process that holds no rows, if any. */
  function FirstEmpty(rows: seq<nat>): (r: Option<nat>)
    ensures r.None? <==> forall pr :: 0 <= pr < |rows| ==> rows[pr] != 0
    ensures r.Some? ==> r.value < |rows| && rows[r.value] == 0 &&
                        forall q :: 0 <= q < r.value ==> rows[q] != 0
  {
    if rows == [] then None
    else if rows[0] == 0 then Some(0)
    else
      match FirstEmpty(rows[1..])
      case None => None
      case Some(e) => Some(e + 1)
  }

  /** `arange(size)` without the first process that holds no rows (source
      lines 935-941): `nonzero` yields an `(k, 1)` tensor and `empties[0]`
      is its first row, so only that one process is removed. A process is
      active when it holds rows or an earlier process is already empty. */
  function ActiveProcs(rows: seq<nat>): (r: seq<nat>)
    ensures Ascending(r)
    ensures forall pr: nat :: pr in r <==> pr < |rows| && (rows[pr] != 0 || exists q :: 0 <= q < pr && rows[q] == 0)
  {
    match FirstEmpty(rows)
    case None => Range(0, |rows|)
    case Some(e) => Range(0, e) + Range(e + 1, |rows|)
  }

  /** A second empty process stays in the active list. */
  lemma SecondEmptyStaysActive(rows: seq<nat>, e1: nat, e2: nat)
    requires e1 < e2 < |rows| && rows[e1] == 0 && rows[e2] == 0
    ensures e2 in ActiveProcs(rows)
  {
  }

  /** `tile_rows_per_process[: active_procs[-1] + 1]` (source line 942); the
      empty list of active processes raises IndexError. */
  function TrimmedTileRows(t: seq<nat>, active: seq<nat>): (r: Result<seq<nat>>)
    ensures r.Err? <==> active == []
    ensures r.Err? ==> r.error == IndexError
    ensures r.Ok? ==> r.value == t[..Min(|t|, active[|active| - 1] + 1)]
  {
    if active == [] then Err(IndexError)
    else
      var stop := active[|active| - 1] + 1;
      Ok(if stop <= |t| then t[..stop] else t)
  }

  /** The first local tile row of the local QR (source line 1149): the
      diagonal process starts at the diagonal tile, every other one at its
      first row. */
  function LocalTileRow(t: seq<nat>, rank: nat, diag: nat, col: nat): (r: int)
    requires rank <= |t|
    ensures DiagProcess(t, col) == Ok(rank) && diag == rank ==> 0 <= r < t[rank] && SumTo(t, rank) + r == col
    ensures rank != diag ==> r == 0
  {
    if rank != diag then 0 else col - SumTo(t, rank)
  }

  /** The global tile row a process contributes to a merge (source lines
      1397-1398): the diagonal process contributes the diagonal tile, every
      other one its first tile row. */
  function MergeTileRow(t: seq<nat>, pr: nat, diag: nat, column: nat): (row: nat)
    requires pr < |t|
    ensures DiagProcess(t, column) == Ok(diag) && pr in NotCompleted(t, column) ==>
              column <= row && SumTo(t, pr) <= row && (row < SumTo(t, pr + 1) <==> t[pr] > 0)
  {
    DiagBelow(t, pr, diag, column);
    if pr != diag then SumTo(t, pr) else column
  }

  /** A process still at work other than the diagonal one starts below the
      diagonal tile. */
  lemma DiagBelow(t: seq<nat>, pr: nat, diag: nat, column: nat)
    requires pr < |t|
    ensures DiagProcess(t, column) == Ok(diag) && pr in NotCompleted(t, column) && pr != diag ==>
              column < SumTo(t, pr) + 1
  {
    if DiagProcess(t, column) == Ok(diag) && pr in NotCompleted(t, column) && pr != diag {
      NotCompletedIsSuffix(t, column);
      assert diag < pr by {
        var nc := NotCompleted(t, column);
        var i :| 0 <= i < |nc| && nc[i] == pr;
      }
      SumToMono(t, diag + 1, pr);
    }
  }

  /** The start and stop indices of a tile, rows then columns. */
  datatype TileIndices = TileIndices(start0: int, stop0: int, start1: int, stop1: int)

  /** The squaring adjustment of a merged tile (source lines 1409-1418): a
      tile with fewer rows than columns on a process holding more than one
      tile row is extended downwards to as many rows as it has columns. */
  function SquareUp(inds: TileIndices, tileRowsOnProc: nat): (r: TileIndices)
    ensures r.start0 == inds.start0 && r.start1 == inds.start1 && r.stop1 == inds.stop1
    ensures tileRowsOnProc > 1 ==> r.stop0 - r.start0 >= r.stop1 - r.start1
    ensures r.stop0 - r.start0 >= inds.stop0 - inds.start0
    ensures r.stop0 != inds.stop0 ==> r.stop0 - r.start0 == r.stop1 - r.start1
    ensures tileRowsOnProc <= 1 ==> r == inds
  {
    if inds.stop0 - inds.start0 < inds.stop1 - inds.start1 && tileRowsOnProc > 1 then
      inds.(stop0 := inds.start0 + (inds.stop1 - inds.start1))
    else inds
  }
}

=== FILE: transpose.dfy ===
/** `transpose` (source lines 1832-1888): the checks on `axes`, the new
    shape and the new split axis. The local data is permuted by torch,
    which is not modelled; only its acceptance of the axes is. */
module Transpose {
  import opened Common

  /** One entry of `axes`: a Python int, or anything else. */
  datatype AxisArg = IntAxis(v: int) | NotAnInt

  /** The `axes` argument: absent, not iterable, or a list of entries. */
  datatype AxesArg = NoAxes | NotIterable | Axes(entries: seq<AxisArg>)

  /** The sanitising loop (source lines 1866-1870): every entry must be an
      int (the first one that is not raises TypeError) and negative ones get
      `dims` added once. */
  function NormalizeAxes(entries: seq<AxisArg>, dims: nat): (r: Result<seq<int>>)
    ensures r.Err? <==> exists i :: 0 <= i < |entries| && entries[i].NotAnInt?
    ensures r.Err? ==> r.error == TypeError
    ensures r.Ok? ==>
              && |r.value| == |entries|
              && forall i :: 0 <= i < |entries| ==>
                   r.value[i] == if entries[i].v < 0 then entries[i].v + dims else entries[i].v
  {
    if entries == [] then Ok([])
    else
      var head := entries[0];
      if head.NotAnInt? then Err(TypeError)
      else
        match NormalizeAxes(entries[1..], dims)
        case Err(e) =>
          assert exists i :: 0 <= i < |entries| && entries[i].NotAnInt? by {
            var i :| 0 <= i < |entries[1..]| && entries[1..][i].NotAnInt?;
            assert entries[i + 1].NotAnInt?;
          }
          Err(e)
        case Ok(rest) =>
          assert forall i :: 1 <= i < |entries| ==> entries[i] == entries[1..][i - 1];
          Ok([if head.v < 0 then head.v + dims else head.v] + rest)
  }

  /** `list.index`: the first position of `x`, or nothing. */
  function IndexOf(s: seq<int>, x: int): (r: Option<nat>)
    ensures r.None? <==> x !in s
    ensures r.Some? ==> r.value < |s| && s[r.value] == x && forall j :: 0 <= j < r.value ==> s[j] != x
  {
    if s == [] then None
    else if s[0] == x then Some(0)
    else
      match IndexOf(s[1..], x)
      case None => None
      case Some(j) => Some(j + 1)
  }

  /** torch's reading of a dimension index: `-dims..dims-1`, negative ones
      counted from the end. */
  function WrapDim(v: int, dims: nat): int
  {
    if v < 0 then v + dims else v
  }

  /** What `permute` accepts: as many indices as dimensions, each one a
      valid dimension once wrapped, no dimension twice. */
  predicate IsPermutation(axes: seq<int>, dims: nat)
  {
    && |axes| == dims
    && (forall i :: 0 <= i < |axes| ==> -(dims as int) <= axes[i] < dims)
    && (forall i, j :: 0 <= i < j < |axes| ==> WrapDim(axes[i], dims) != WrapDim(axes[j], dims))
  }

  /** The reversed dimensions, `tuple(reversed(range(dims)))`. */
  function Reversed(dims: nat): (r: seq<int>)
    ensures |r| == dims && forall i :: 0 <= i < dims ==> r[i] == dims - 1 - i
  {
    seq(dims, i => dims - 1 - i)
  }

  /** The new shape and split of `transpose(a, axes)` for an array of
      global shape `shape` split along `split`. A failure of `permute` or of
      the shape lookup is re-raised as ValueError. */
  function TransposeMeta(shape: seq<nat>, split: Option<nat>, axesArg: AxesArg): (r: Result<(seq<nat>, Option<nat>)>)
    ensures axesArg.NotIterable? ==> r == Err(ValueError)
    ensures axesArg.Axes? && |axesArg.entries| != |shape| ==> r == Err(ValueError)
    ensures axesArg.Axes? && |axesArg.entries| == |shape| && NormalizeAxes(axesArg.entries, |shape|).Err? ==>
              r == Err(TypeError)
    ensures r.Ok? ==>
              var axes := if axesArg.NoAxes? then Reversed(|shape|) else NormalizeAxes(axesArg.entries, |shape|).value;
              && IsPermutation(axes, |shape|)
              && |r.value.0| == |shape|
              && (forall i :: 0 <= i < |shape| ==> r.value.0[i] == shape[WrapDim(axes[i], |shape|)])
              && (split.None? <==> r.value.1.None?)
              && (split.Some? ==> IndexOf(axes, split.value) == r.value.1)
    // once the axes are read, they are accepted exactly when they form a
    // permutation that names the split axis; anything else is a ValueError
    ensures axesArg.NoAxes? || (axesArg.Axes? && |axesArg.entries| == |shape| &&
                                NormalizeAxes(axesArg.entries, |shape|).Ok?) ==>
              var axes := if axesArg.NoAxes? then Reversed(|shape|) else NormalizeAxes(axesArg.entries, |shape|).value;
              && (r.Ok? <==> IsPermutation(axes, |shape|) && (split.Some? ==> split.value in axes))
              && (r.Err? ==> r.error == ValueError)
    ensures r.Err? ==> r.error == ValueError || r.error == TypeError
  {
    var dims := |shape|;
    var axes: Result<seq<int>> :=
      match axesArg
      case NoAxes => Ok(Reversed(dims))
      case NotIterable => Err(ValueError)
      case Axes(entries) =>
        if |entries| != dims then Err(ValueError) else NormalizeAxes(entries, dims);
    match axes
    case Err(e) => Err(e)
    case Ok(axes) =>
      var newSplit: Result<Option<nat>> :=
        match split
        case None => Ok(None)
        case Some(s) => (match IndexOf(axes, s) case None => Err(ValueError) case Some(p) => Ok(Some(p)));
      match newSplit
      case Err(e) => Err(e)
      case Ok(ns) =>
        if !IsPermutation(axes, dims) then Err(ValueError)
        else Ok((seq(dims, i requires 0 <= i < dims => shape[WrapDim(axes[i], dims)]), ns))
  }

  /** The reversed shape and the mirrored split. */
  function Mirror(shape: seq<nat>, split: Option<nat>): (r: (seq<nat>, Option<nat>))
    requires split.Some? ==> split.value < |shape|
    ensures |r.0| == |shape| && forall i :: 0 <= i < |shape| ==> r.0[i] == shape[|shape| - 1 - i]
    ensures r.1.Some? ==> r.1.value < |shape|
  {
    (seq(|shape|, i requires 0 <= i < |shape| => shape[|shape| - 1 - i]),
     if split.None? then None else Some(|shape| - 1 - split.value))
  }

  /** With `axes` left out the dimensions are reversed and the split moves
      to the mirrored axis. */
  lemma DefaultReverses(shape: seq<nat>, split: Option<nat>)
    requires split.Some? ==> split.value < |shape|
    ensures TransposeMeta(shape, split, NoAxes) == Ok(Mirror(shape, split))
  {
    var dims := |shape|;
    var rev := Reversed(dims);
    assert IsPermutation(rev, dims);
    if split.Some? {
      var s := split.value;
      assert rev[dims - 1 - s] == s;
      var p := IndexOf(rev, s);
      assert p.Some?;
      assert rev[p.value] == dims - 1 - p.value;
    }
    var r := TransposeMeta(shape, split, NoAxes);
    assert r.Ok?;
    assert r.value.0 == Mirror(shape, split).0;
  }

  /** Mirroring twice gives back the shape and split. */
  lemma MirrorTwice(shape: seq<nat>, split: Option<nat>)
    requires split.Some? ==> split.value < |shape|
    ensures var once := Mirror(shape, split); Mirror(once.0, once.1) == (shape, split)
  {
    var once := Mirror(shape, split);
    assert Mirror(once.0, once.1).0 == shape;
  }

  /** Transposing twice without `axes` gives back the array's shape and
      split. */
  lemma DefaultTwiceIsIdentity(shape: seq<nat>, split: Option<nat>)
    requires split.Some? ==> split.value < |shape|
    ensures TransposeMeta(shape, split, NoAxes).Ok?
    ensures var once := TransposeMeta(shape, split, NoAxes).value;
            TransposeMeta(once.0, once.1, NoAxes) == Ok((shape, split))
  {
    DefaultReverses(shape, split);
    var once := Mirror(shape, split);
    DefaultReverses(once.0, once.1);
    MirrorTwice(shape, split);
  }

  /** The split axis keeps its extent: the new split names the same global
      dimension as the old one. */
  lemma SplitExtentKept(shape: seq<nat>, split: Option<nat>, axesArg: AxesArg)
    requires split.Some? && split.value < |shape|
    requires TransposeMeta(shape, split, axesArg).Ok?
    ensures var r := TransposeMeta(shape, split, axesArg).value;
            r.1.Some? && r.1.value < |r.0| && r.0[r.1.value] == shape[split.value]
  {
  }

  /** An old split that no entry names raises ValueError. */
  lemma MissingSplitRaises(shape: seq<nat>, s: nat, entries: seq<AxisArg>)
    requires |entries| == |shape|
    requires NormalizeAxes(entries, |shape|).Ok?
    requires s !in NormalizeAxes(entries, |shape|).value
    ensures TransposeMeta(shape, Some(s), Axes(entries)) == Err(ValueError)
  {
  }

  /** Entries below `-dims` survive the single `+ dims` still negative and
      torch wraps them a second time: on an unsplit 2-D array the axes
      `(-4, -3)` are accepted and leave the shape as it was. */
  lemma DoublyNegativeAxesAccepted(rows: nat, cols: nat)
    ensures TransposeMeta([rows, cols], None, Axes([IntAxis(-4), IntAxis(-3)])) == Ok(([rows, cols], None))
  {
    var entries := [IntAxis(-4), IntAxis(-3)];
    var n := NormalizeAxes(entries, 2);
    assert !entries[0].NotAnInt? && !entries[1].NotAnInt?;
    assert n.Ok? && n.value[0] == -2 && n.value[1] == -1;
    assert n.value == [-2, -1];
    assert IsPermutation([-2, -1], 2);
    var r := TransposeMeta([rows, cols], None, Axes(entries));
    assert r.Ok? && r.value.0 == [rows, cols];
  }
}

=== FILE: triangle.dfy ===
/** `tril`/`triu` on a distributed array (`__tri_op`, source lines
    1895-1967): the diagonal offset `k` each process hands to torch for its
    own shard, the shape and split of the result, and why the shard's mask
    is the global mask seen through the shard. `offset` is the global index
    of the shard's first element along the split axis (the first value
    `comm.chunk` returns), 0 when the array is not split. */
module Triangle {
  import opened Common

  /** `torch.tril` or `torch.triu`. */
  datatype TriKind = Lower | Upper

  /** The `k` argument: something `int()` accepts, or the error `int()`
      raises on it (ValueError for a non-numeric string or a NaN,
      OverflowError for an infinite float, TypeError for `None`). */
  datatype KArg = Integral(k: int) | Rejected(raised: PyError)

  /** Whether the operator keeps entry `(i, j)` for diagonal `k`: on and
      below the k-th diagonal for `tril`, on and above it for `triu`. */
  predicate Keeps(op: TriKind, i: int, j: int, k: int)
  {
    if op == Lower then j - i <= k else j - i >= k
  }

  /** The operator on a matrix: entries it does not keep become 0. */
  function ApplyTri(op: TriKind, m: seq<seq<int>>, k: int): (r: seq<seq<int>>)
    ensures |r| == |m|
    ensures forall i :: 0 <= i < |m| ==> |r[i]| == |m[i]|
  {
    seq(|m|, i requires 0 <= i < |m| =>
      seq(|m[i]|, j requires 0 <= j < |m[i]| => if Keeps(op, i, j, k) then m[i][j] else 0))
  }

  /** The diagonal handed to torch on the shard (source lines 1935 and 1949-1954).
      Shifting by the shard's offset makes the local mask the global one:
      a row split moves the row index by `offset`, a column split the column
      index, and a split along a batch axis moves neither. */
  function LocalK(dims: nat, split: Option<nat>, offset: nat, k: int): (r: int)
    ensures dims == 0 ==> r == k
    ensures dims == 1 ==> forall op, i, j :: Keeps(op, i, j, r) <==> Keeps(op, i, j + offset, k)
    ensures dims >= 2 && split == Some(dims - 2) ==>
              forall op, i, j :: Keeps(op, i, j, r) <==> Keeps(op, i + offset, j, k)
    ensures dims >= 2 && split == Some(dims - 1) ==>
              forall op, i, j :: Keeps(op, i, j, r) <==> Keeps(op, i, j + offset, k)
    ensures dims >= 2 && split.Some? && split.value < dims - 2 ==> r == k
    ensures split.None? && dims >= 2 ==> r == k
  {
    if dims == 1 then k - offset
    else if split.None? then k
    else if split.value + 1 == dims - 1 then k + offset
    else if split.value == dims - 1 then k - offset
    else k
  }

  /** Shape and split of the result (source lines 1922-1944 and 1956-1967): a
      vector of length n becomes an n x n matrix, split along its columns
      when the vector was split; otherwise both are kept. Only a ValueError
      from `int(k)` is turned into TypeError; any other error `int()` raises
      propagates unchanged. A 0-d array takes the batch loop, whose one
      iteration indexes it with two slices and raises IndexError. */
  function TriMeta(shape: seq<nat>, split: Option<nat>, k: KArg): (r: Result<(seq<nat>, Option<nat>)>)
    ensures r.Err? <==> k.Rejected? || |shape| == 0
    ensures k.Rejected? ==> r == Err(if k.raised == ValueError then TypeError else k.raised)
    ensures r == Err(OverflowError) <==> k == Rejected(OverflowError)
    ensures k.Integral? && |shape| == 0 ==> r == Err(IndexError)
    ensures r.Ok? && |shape| == 1 ==> r.value.0 == [shape[0], shape[0]] && (r.value.1.None? <==> split.None?) &&
                                      (split.Some? ==> r.value.1 == Some(1))
    ensures r.Ok? && |shape| >= 2 ==> r.value == (shape, split)
  {
    if k.Rejected? then Err(if k.raised == ValueError then TypeError else k.raised)
    else if |shape| == 0 then Err(IndexError)
    else if |shape| == 1 then Ok(([shape[0], shape[0]], if split.None? then None else Some(1)))
    else Ok((shape, split))
  }

  /** Every row has `cols` entries. */
  predicate Rectangular(m: seq<seq<int>>, cols: nat)
  {
    forall i :: 0 <= i < |m| ==> |m[i]| == cols
  }

  /** Columns `lo .. lo + len - 1` of every row: a shard of a matrix split
      along its columns. */
  function Columns(m: seq<seq<int>>, cols: nat, lo: nat, len: nat): (r: seq<seq<int>>)
    requires Rectangular(m, cols) && lo + len <= cols
    ensures |r| == |m| && Rectangular(r, len)
    ensures forall i, j :: 0 <= i < |m| && 0 <= j < len ==> r[i][j] == m[i][lo + j]
  {
    seq(|m|, i requires 0 <= i < |m| => m[i][lo..lo + len])
  }

  /** A shard of rows, processed with the shifted diagonal, is exactly the
      same rows of the globally processed matrix. */
  lemma RowShardMatchesGlobal(op: TriKind, g: seq<seq<int>>, cols: nat, offset: nat, len: nat, k: int)
    requires Rectangular(g, cols) && offset + len <= |g|
    ensures ApplyTri(op, g[offset..offset + len], LocalK(2, Some(0), offset, k)) ==
              ApplyTri(op, g, k)[offset..offset + len]
  {
    var local := ApplyTri(op, g[offset..offset + len], LocalK(2, Some(0), offset, k));
    var global := ApplyTri(op, g, k)[offset..offset + len];
    forall i | 0 <= i < len ensures local[i] == global[i] {
      assert g[offset..offset + len][i] == g[offset + i];
    }
  }

  /** A shard of columns, processed with the shifted diagonal, is exactly
      the same columns of the globally processed matrix. */
  lemma ColumnShardMatchesGlobal(op: TriKind, g: seq<seq<int>>, cols: nat, offset: nat, len: nat, k: int)
    requires Rectangular(g, cols) && offset + len <= cols
    ensures var tri := ApplyTri(op, g, k);
            Rectangular(tri, cols) &&
            ApplyTri(op, Columns(g, cols, offset, len), LocalK(2, Some(1), offset, k)) ==
              Columns(tri, cols, offset, len)
  {
    var tri := ApplyTri(op, g, k);
    var local := ApplyTri(op, Columns(g, cols, offset, len), LocalK(2, Some(1), offset, k));
    var global := Columns(tri, cols, offset, len);
    forall i | 0 <= i < |g| ensures local[i] == global[i] {
      assert |local[i]| == len == |global[i]|;
    }
  }

  /** `expand(n, -1)`: `n` copies of a vector as the rows of a matrix. */
  function Expand(v: seq<int>, n: nat): (m: seq<seq<int>>)
    ensures |m| == n && Rectangular(m, |v|)
    ensures forall i :: 0 <= i < n ==> m[i] == v
  {
    seq(n, i => v)
  }

  /** A shard of a vector, repeated and processed with `k - offset`, is
      the shard's columns of the n x n matrix processed globally (source
      lines 1931-1944). */
  lemma VectorShardMatchesGlobal(op: TriKind, v: seq<int>, offset: nat, len: nat, k: int)
    requires offset + len <= |v|
    ensures var tri := ApplyTri(op, Expand(v, |v|), k);
            Rectangular(tri, |v|) &&
            ApplyTri(op, Expand(v[offset..offset + len], |v|), LocalK(1, Some(0), offset, k)) ==
              Columns(tri, |v|, offset, len)
  {
    var n := |v|;
    var tri := ApplyTri(op, Expand(v, n), k);
    var local := ApplyTri(op, Expand(v[offset..offset + len], n), LocalK(1, Some(0), offset, k));
    var global := Columns(tri, n, offset, len);
    forall i | 0 <= i < n ensures local[i] == global[i] {
      assert |local[i]| == len == |global[i]|;
    }
  }
}
